=== FILE: README.md ===
# Social media platform: services core

A model of the core of a social-media platform made of Spring services that
talk over Kafka topics, STOMP user queues and HTTP:

- **Users** — the user service: registration and login, the follow graph
  stored twice (in the follower's `following` and in the followed user's
  `followers`), profile updates, and the projections other services fetch
  (`getUserById`, `getUserProfile`, `getUserFollowing`). It publishes
  REGISTRATION, LOGIN and FOLLOW events on `user-events`.
- **Posts** — the post service: creating posts with uploaded images and
  video, likes, comments, soft deletion, `getPost`, the feed query and the
  `mapToPostResponse` projection (with its "last three comments" window).
  It publishes POST_LIKED and COMMENT events on `post-events`.
- **FileStorage** — the naming half of the post service's file store: the
  extension taken after the last inner dot, the stored name built from a
  random UUID, and the public `/uploads/<subfolder>/<name>` path.
- **Messages** — the message service: building, saving and pushing a direct
  message, and fetching a conversation page; the messaging template is a
  `Broker` object whose `sent` log records every delivered push.
- **WebSocket** — the STOMP controller: which sender id a message is sent
  under (the session's `userId`, or the debug id `hardcoded-id-for-debug`),
  the second, wrapped MESSAGE push, and the typing indicator, which
  overwrites the payload's `userId` and echoes it to the typing user.
- **NotificationListener** — the notification service's Kafka listener: each
  event is mapped to at most one notification request, by discriminator.
- **Pipeline** — the services together: what the listener does with the
  events the producers actually publish, and how the follow graph drives
  the feed.

Stateful services are classes whose fields are the document store (a map
from id to document) and the published event log (a sequence); methods
state the whole new state and keep the store invariants. Pure steps
(projections, validity checks, builders, the listener) are functions.
Java null is modelled as `Option` for the fields listed under "## Left out":
event discriminators, the comment of a post event, `targetUserId`, the
follow collections, profile request fields and session attributes. The Java field `type` is called `kind`.

The code behaves as follows where a reader might expect otherwise:

- the post service publishes comment events as `COMMENT`, and the user
  service publishes follows as `FOLLOW`, while the listener matches
  `POST_COMMENTED` and `USER_FOLLOWED`; so comments and follows produce no
  notification (`Pipeline.CommentIsNeverNotified`,
  `Pipeline.FollowIsNeverNotified`);
- the listener throws on a user or post event whose discriminator is null,
  rather than dropping it; message events with a null discriminator are
  dropped;
- the listener applies no notification preferences itself: each matched
  event yields one `createNotification` request, including a like on one's
  own post.

## Model

| member | source | states |
|---|---|---|
| NotificationListener.FollowNotification | services/notification-service/src/main/java/com/notification_service/notification_service/event/NotificationEventListener.java:53-64 | the followed user (`targetUserId`) is the recipient, the follower is sender and target, kind FOLLOW, no metadata |
| NotificationListener.LikeNotification | services/notification-service/src/main/java/com/notification_service/notification_service/event/NotificationEventListener.java:66-77 | the post owner is the recipient, the liker the sender, the post the target, kind LIKE_POST, no metadata |
| NotificationListener.CommentNotification | services/notification-service/src/main/java/com/notification_service/notification_service/event/NotificationEventListener.java:79-91 | the post owner is the recipient; metadata is exactly the one entry `comment` holding the comment text |
| NotificationListener.MessageNotification | services/notification-service/src/main/java/com/notification_service/notification_service/event/NotificationEventListener.java:93-104 | the receiver is the recipient, the sender the sender, the conversation the target, kind MESSAGE |
| NotificationListener.HandleUserEvent | services/notification-service/src/main/java/com/notification_service/notification_service/event/NotificationEventListener.java:19-28 | a null discriminator throws; a notification is created if and only if the discriminator is USER_FOLLOWED; every other value is dropped |
| NotificationListener.HandlePostEvent | services/notification-service/src/main/java/com/notification_service/notification_service/event/NotificationEventListener.java:30-42 | fails if and only if the discriminator is null or a POST_COMMENTED event has a null comment; POST_LIKED gives the like notification, POST_COMMENTED the comment notification, anything else is dropped; only comments carry metadata |
| NotificationListener.HandleMessageEvent | services/notification-service/src/main/java/com/notification_service/notification_service/event/NotificationEventListener.java:44-51 | never fails, even on a null discriminator; creates the message notification if and only if the discriminator is NEW_MESSAGE |
| NotificationListener.SelfLikeNotifiesOwner | services/notification-service/src/main/java/com/notification_service/notification_service/event/NotificationEventListener.java:30-35 | a user liking their own post is notified about it: recipient equals sender |
| FileStorage.LastIndexOf | services/post-service/src/main/java/com/upost_service/post_service/controller/FileStorageService.java:49 | the result is an index holding the character with no occurrence after it, or -1 when no index holds it |
| FileStorage.GetFileExtension | services/post-service/src/main/java/com/upost_service/post_service/controller/FileStorageService.java:48-51 | the extension is empty exactly when the name is empty, has no dot after its first character, or ends in a dot; otherwise it is the dot-free text after the last dot |
| FileStorage.StoredName | services/post-service/src/main/java/com/upost_service/post_service/controller/FileStorageService.java:35 | the stored name is the UUID, followed by a dot and the extension when the extension is non-empty; it never ends in a dot |
| FileStorage.SaveFile | services/post-service/src/main/java/com/upost_service/post_service/controller/FileStorageService.java:32-46 | the path is the subfolder directory followed by the stored name (UUID, dot, extension), never ends in a dot, and has the same extension as the original file name |
| FileStorage.SaveImage | services/post-service/src/main/java/com/upost_service/post_service/controller/FileStorageService.java:22-24 | the path is `/uploads/images/` followed by the stored name: the fresh UUID and the upload's extension |
| FileStorage.SaveVideo | services/post-service/src/main/java/com/upost_service/post_service/controller/FileStorageService.java:27-29 | the path is `/uploads/videos/` followed by the stored name: the fresh UUID and the upload's extension |
| FileStorage.StoredPathShape | services/post-service/src/main/java/com/upost_service/post_service/controller/FileStorageService.java:35-42 | a stored path is the directory followed by the UUID and never ends in a dot |
| FileStorage.StoredNameKeepsExtension | services/post-service/src/main/java/com/upost_service/post_service/controller/FileStorageService.java:35-42 | reading the extension back from a stored path gives the extension it was built with |
| FileStorage.StoredNameRoundTrip | services/post-service/src/main/java/com/upost_service/post_service/controller/FileStorageService.java:34-35 | extension of the stored name = extension of the original name |
| FileStorage.NoExtensionWithoutInnerDot | services/post-service/src/main/java/com/upost_service/post_service/controller/FileStorageService.java:49-50 | a name with no dot, or whose only dot is its first character, has no extension |
| FileStorage.TrailingDotGivesNoExtension | services/post-service/src/main/java/com/upost_service/post_service/controller/FileStorageService.java:49-50 | a name ending in a dot has an empty extension |
| Users.FindByUsername | services/user-service/src/main/java/com/user_service/user_service/service/UserService.java:175-176 | with unique usernames, finds the one user holding the name, or reports that none does |
| Users.GetUserById | services/user-service/src/main/java/com/user_service/user_service/service/UserService.java:45-63 | fails if and only if the id is unknown; otherwise id, username, email, full name, picture and bio are the user's, and the counts are the collection sizes, 0 for a null collection |
| Users.GetUserProfile | services/user-service/src/main/java/com/user_service/user_service/service/UserService.java:206-224 | an unknown username fails with "User not found"; a null collection throws; it succeeds exactly when a user holds the name and both collections are non-null, reporting their sizes and copying username, full name, bio, both pictures, the verified flag and the creation time |
| Users.GetUserFollowing | services/user-service/src/main/java/com/user_service/user_service/service/UserService.java:292-300 | fails if and only if the user is unknown or has a null collection; otherwise holds exactly the ids the user follows |
| Users.Followed | services/user-service/src/main/java/com/user_service/user_service/service/UserService.java:236-240 | exactly the pair (follower, followed) joins the follow relation, recorded in both documents; no other user and no account field changes |
| Users.Unfollowed | services/user-service/src/main/java/com/user_service/user_service/service/UserService.java:258-262 | the pair leaves the relation; when a user unfollows themselves the second save overwrites the first and only `followers` changes |
| Users.FollowEvent | services/user-service/src/main/java/com/user_service/user_service/service/UserService.java:242-248 | a FOLLOW event naming the follower, the follower's username and the followed user |
| Users.FollowPreservesStore | services/user-service/src/main/java/com/user_service/user_service/service/UserService.java:226-250 | a successful follow keeps the store invariants: ids match keys, unique usernames and emails, both copies of the follow graph agree, nobody follows themselves |
| Users.UnfollowPreservesStore | services/user-service/src/main/java/com/user_service/user_service/service/UserService.java:252-264 | a successful unfollow keeps the same store invariants |
| Users.UnfollowUndoesFollow | services/user-service/src/main/java/com/user_service/user_service/service/UserService.java:226-264 | unfollowing right after a new follow restores the store exactly |
| Users.FollowIdempotent | services/user-service/src/main/java/com/user_service/user_service/service/UserService.java:236-240 | following twice leaves the store as following once |
| Users.FollowCountsRise | services/user-service/src/main/java/com/user_service/user_service/service/UserService.java:60-61 | a new follow raises the followed user's follower count and the follower's following count by one each |
| Users.SelfUnfollowTouchesOnlyFollowers | services/user-service/src/main/java/com/user_service/user_service/service/UserService.java:252-264 | unfollowing oneself succeeds and rewrites only one's own `followers` |
| Users.AddUserPreservesStore | services/user-service/src/main/java/com/user_service/user_service/service/UserService.java:124-134 | saving a fresh user with a free username and email and empty collections keeps the store invariants |
| Users.ApplyProfileUpdate | services/user-service/src/main/java/com/user_service/user_service/service/UserService.java:270-272 | non-null request fields replace the stored ones, `updatedAt` is stamped and no other field changes |
| Users.ProfileUpdatePreservesStore | services/user-service/src/main/java/com/user_service/user_service/service/UserService.java:266-278 | a profile update keeps the store invariants, since it touches neither account identity nor the follow graph |
| Users.ProfileUpdateIdempotent | services/user-service/src/main/java/com/user_service/user_service/service/UserService.java:270-272 | applying the same profile update twice equals applying it once |
| Users.UserService.constructor | services/user-service/src/main/java/com/user_service/user_service/service/UserService.java:28-38 | an empty store and an empty event log satisfy the invariants (store invariants, and every event is REGISTRATION, LOGIN or FOLLOW) |
| Users.UserService.Register | services/user-service/src/main/java/com/user_service/user_service/service/UserService.java:100-172 | fails, changing nothing, if and only if the username or then the email is taken, with the `Registration failed: ` prefix; otherwise adds one user with empty collections, publishes one REGISTRATION event and returns a token for the new id; invariants kept |
| Users.UserService.Login | services/user-service/src/main/java/com/user_service/user_service/service/UserService.java:174-204 | fails, changing nothing, on an unknown username or a password the encoder rejects; otherwise only that user's `lastSeen` changes, one LOGIN event is published and a token for that user is returned |
| Users.UserService.FollowUser | services/user-service/src/main/java/com/user_service/user_service/service/UserService.java:226-250 | returns the checks' verdict in source order; on failure nothing changes; on success the store becomes `Followed` and one FOLLOW event is appended; invariants kept |
| Users.UserService.UnfollowUser | services/user-service/src/main/java/com/user_service/user_service/service/UserService.java:252-264 | same error order without the self check; on success the store becomes `Unfollowed`; no event is ever published |
| Users.UserService.UpdateProfile | services/user-service/src/main/java/com/user_service/user_service/service/UserService.java:266-278 | an unknown id fails unchanged; otherwise the update is saved and the result is the re-read profile, which may still fail on a null collection |
| Posts.ToCommentResponses | services/post-service/src/main/java/com/upost_service/post_service/service/PostService.java:165-175 | one response per comment, in order |
| Posts.RecentComments | services/post-service/src/main/java/com/upost_service/post_service/service/PostService.java:165-175 | the last min(3, n) comments in stored order |
| Posts.MapToPostResponse | services/post-service/src/main/java/com/upost_service/post_service/service/PostService.java:164-192 | every copied field (ids, author name and picture, content, media, shares, creation time) is the post's; counts are the sizes of likes and comments, `isLiked` is the viewer's membership in the likes, recent comments as above |
| Posts.RecentCommentsSlide | services/post-service/src/main/java/com/upost_service/post_service/service/PostService.java:133-175 | a new comment becomes the last recent comment, and with three already shown the oldest drops out |
| Posts.CommentedResponse | services/post-service/src/main/java/com/upost_service/post_service/service/PostService.java:133-148 | the response to `addComment` counts the new comment and shows it as the last of the recent comments |
| Posts.GetPost | services/post-service/src/main/java/com/upost_service/post_service/service/PostService.java:66-75 | succeeds if and only if the post exists and is not deleted, with the two distinct error messages otherwise |
| Posts.FeedAuthors | services/post-service/src/main/java/com/upost_service/post_service/service/PostService.java:84-85 | the followed ids with the user's own id appended last |
| Posts.GetFeed | services/post-service/src/main/java/com/upost_service/post_service/service/PostService.java:82-89 | fails if and only if the follow list cannot be fetched; otherwise holds exactly the live posts of the user and the followed ids, each projected for the user |
| Posts.OwnPostsInFeed | services/post-service/src/main/java/com/upost_service/post_service/service/PostService.java:85 | a user's own live posts are always in their feed |
| Posts.DeletedPostIsHidden | services/post-service/src/main/java/com/upost_service/post_service/service/PostService.java:151-162 | after a soft delete the post is still stored but `getPost` refuses it |
| Posts.LikeUnlikeResponses | services/post-service/src/main/java/com/upost_service/post_service/service/PostService.java:91-119 | a like is seen by the liker and counted once however often repeated; an unlike removes it; unlike after a new like restores the post |
| Posts.StoreImages | services/post-service/src/main/java/com/upost_service/post_service/service/PostService.java:39-45 | one stored path per image, in upload order, each the image store's path for that upload |
| Posts.StoreVideo | services/post-service/src/main/java/com/upost_service/post_service/service/PostService.java:47-50 | a video path exists if and only if a non-empty video was uploaded; it lies under `/uploads/videos/` and ends in the stored name of the UUID and the upload's extension |
| Posts.LikeEvent | services/post-service/src/main/java/com/upost_service/post_service/service/PostService.java:99-104 | a POST_LIKED event naming the post, its owner, the liker and the liker's username, with no comment |
| Posts.CommentEvent | services/post-service/src/main/java/com/upost_service/post_service/service/PostService.java:138-144 | a COMMENT event naming the post, its owner, the commenter and the commenter's username, carrying the comment text |
| Posts.PostService.constructor | services/post-service/src/main/java/com/upost_service/post_service/service/PostService.java:23-30 | an empty store and log satisfy the invariant (each post under its own id, every event POST_LIKED or COMMENT) |
| Posts.PostService.CreatePost | services/post-service/src/main/java/com/upost_service/post_service/service/PostService.java:33-64 | fails, changing nothing, if and only if the author lookup fails; otherwise stores exactly one new post with the author's name and picture, the stored media, no likes or comments, zero shares, not deleted, and returns its projection; no event |
| Posts.PostService.LikePost | services/post-service/src/main/java/com/upost_service/post_service/service/PostService.java:91-109 | a missing post changes nothing; otherwise the like is saved before the liker lookup, so a failed lookup keeps the like and publishes nothing; on success one POST_LIKED event and `isLiked` |
| Posts.PostService.UnlikePost | services/post-service/src/main/java/com/upost_service/post_service/service/PostService.java:111-119 | a missing post changes nothing; otherwise only the like is removed, nothing is published and `isLiked` is false |
| Posts.PostService.AddComment | services/post-service/src/main/java/com/upost_service/post_service/service/PostService.java:121-149 | either lookup failing changes nothing; otherwise exactly one comment is appended at the end, one COMMENT event carries the text, the count rises by one and the new comment is the last recent one |
| Posts.PostService.DeletePost | services/post-service/src/main/java/com/upost_service/post_service/service/PostService.java:151-162 | a missing post or a non-owner fails unchanged; the owner's delete only sets the flag and the timestamp, and no post leaves the store |
| Messages.ValueOf | services/message-service/src/main/java/com/message_service/message_service/service/MessageService.java:60 | accepts exactly the four constant names and otherwise fails naming the rejected text |
| Messages.TypeNameRoundTrip | services/message-service/src/main/java/com/message_service/message_service/service/MessageService.java:60-107 | `valueOf` and `toString` are inverse |
| Messages.MapToResponse | services/message-service/src/main/java/com/message_service/message_service/service/MessageService.java:98-113 | every field is copied unchanged, and the type name parses back to the message's type |
| Messages.MapToResponses | services/message-service/src/main/java/com/message_service/message_service/service/MessageService.java:95 | one response per message, in page order |
| Messages.ResponseIsLossless | services/message-service/src/main/java/com/message_service/message_service/service/MessageService.java:98-113 | two messages with the same response are the same message |
| Messages.BuildMessage | services/message-service/src/main/java/com/message_service/message_service/service/MessageService.java:53-63 | conversation from the conversation service, sender name and picture from the user service, request fields copied, created now, unread, no read time |
| Messages.Broker.constructor | services/message-service/src/main/java/com/message_service/message_service/service/MessageService.java:41 | a template that has sent nothing |
| Messages.Broker.ConvertAndSendToUser | services/message-service/src/main/java/com/message_service/message_service/service/MessageService.java:74-78 | a delivered push is appended to the sent log; a failing one appends nothing and reports the failure |
| Messages.MessageService.constructor | services/message-service/src/main/java/com/message_service/message_service/service/MessageService.java:36-41 | an empty store and no conversation calls |
| Messages.MessageService.SendMessage | services/message-service/src/main/java/com/message_service/message_service/service/MessageService.java:43-84 | a failed sender lookup changes nothing; a bad type fails after the conversation lookup without saving; otherwise exactly one message is saved, the conversation is updated, the response is returned whether or not the push fails, and the receiver gets one push when it succeeds |
| Messages.MessageService.GetConversationMessages | services/message-service/src/main/java/com/message_service/message_service/service/MessageService.java:87-96 | the page is returned as fetched, newest first, one response per stored message; the page is built from the store before the conversation is marked read for the caller; the store afterwards is whatever the conversation service leaves |
| WebSocket.SessionUserId | services/message-service/src/main/java/com/message_service/message_service/controller/WebSocketController.java:25-26 | a user id exactly when the session has an attribute map holding `userId` |
| WebSocket.ResolveSender | services/message-service/src/main/java/com/message_service/message_service/controller/WebSocketController.java:28-38 | the session's user id, or `hardcoded-id-for-debug` when it has none |
| WebSocket.WsMessage.constructor | services/message-service/src/main/java/com/message_service/message_service/controller/WebSocketController.java:53 | a payload with the given fields |
| WebSocket.WebSocketController.constructor | services/message-service/src/main/java/com/message_service/message_service/controller/WebSocketController.java:16-19 | the controller shares the service's messaging template |
| WebSocket.WebSocketController.SendMessage | services/message-service/src/main/java/com/message_service/message_service/controller/WebSocketController.java:21-50 | the service is called with the session's user id, or `hardcoded-id-for-debug` without one: an unknown sender fails with nothing changed, a bad type fails after the conversation lookup, otherwise exactly the message built for that sender is saved and the conversation calls are recorded; without a session user nothing beyond the service's own push is sent; with one the receiver additionally gets a MESSAGE frame wrapping the same response, a failure of that push propagates, and when both pushes are delivered the receiver's count on `/queue/messages` rises by two |
| WebSocket.WebSocketController.Typing | services/message-service/src/main/java/com/message_service/message_service/controller/WebSocketController.java:52-63 | a session without a user id throws before any change; otherwise the payload's `userId` is overwritten with the session user and the payload goes to that same user's typing queue |
| WebSocket.ReceiverGetsTwoPushes | services/message-service/src/main/java/com/message_service/message_service/controller/WebSocketController.java:38-49 | on the authenticated path with both pushes delivered the receiver gets the message twice on `/queue/messages` |
| Pipeline.FollowIsNeverNotified | services/user-service/src/main/java/com/user_service/user_service/service/UserService.java:242-248 | a follow event as published (FOLLOW) is dropped by the listener, which waits for USER_FOLLOWED |
| Pipeline.UserLogNeverNotifies | services/notification-service/src/main/java/com/notification_service/notification_service/event/NotificationEventListener.java:19-28 | no event log the user service can write yields any notification |
| Pipeline.UserServiceNeverNotifies | services/user-service/src/main/java/com/user_service/user_service/service/UserService.java:146-152 | the user service's own event log, whatever operations produced it, yields no notification |
| Pipeline.LikeNotifiesOwner | services/post-service/src/main/java/com/upost_service/post_service/service/PostService.java:99-106 | a like event as published reaches the post owner, from the liker, about the post |
| Pipeline.CommentIsNeverNotified | services/post-service/src/main/java/com/upost_service/post_service/service/PostService.java:138-146 | a comment event as published (COMMENT) is dropped by the listener, which waits for POST_COMMENTED |
| Pipeline.PostLogNotifiesLikesOnly | services/notification-service/src/main/java/com/notification_service/notification_service/event/NotificationEventListener.java:30-42 | over any log the post service can write there is exactly one notification per like, each a like notification without metadata |
| Pipeline.PostServiceNotifiesLikesOnly | services/post-service/src/main/java/com/upost_service/post_service/service/PostService.java:99-146 | the post service's own event log yields exactly one like notification per like and nothing else |
| Pipeline.FeedFollowsGraph | services/post-service/src/main/java/com/upost_service/post_service/service/PostService.java:82-89 | the feed built from the user service's follow list holds exactly the live posts of the people the user follows and the user's own |
| Pipeline.FollowBringsPostsIntoFeed | services/user-service/src/main/java/com/user_service/user_service/service/UserService.java:226-250 | after a successful follow, the followed user's live posts are in the follower's feed |

## Left out

- Transport: Kafka delivery (ordering, retries, at-least-once), the STOMP
  broker and Feign/HTTP are not modelled. A published event is an entry
  appended to the service's event log; a push is an entry in `Broker.sent`;
  a remote user lookup is a map (`Directory`) whose missing key stands for
  the failed call.
- `ConversationService` and `NotificationService` are opaque: the calls made
  to the conversation service are recorded in order and its answer (the
  conversation id) is a parameter. `findOrCreateConversation`,
  `updateAfterMessage` and `markAsRead` are taken never to throw, which
  the single saved message and the pushes after it rely on. The listener's
  result is the request it would hand to `createNotification`.
- Password encoding, password matching and JWT generation are function
  parameters; clocks, UUIDs, and the ids assigned by the document store are
  parameters.
- Messages.MessageService.GetConversationMessages: the store's newest-first
  paged query is a parameter (`page`), constrained to stored messages of the
  conversation in newest-first order; paging itself is not modelled.
  The effect of the conversation service's `markAsRead` on the message store
  is not modelled: the store it leaves is a parameter (`storeAfterMark`).
- Messages.MessageService.SendMessage: the conversation service's
  `updateAfterMessage` is taken to leave the message store alone, so the
  saved message is the only change to the store.
- Posts.GetFeed: returns the set of matching posts keyed by id; the store's
  newest-first order and paging are not modelled. The follow list is the one
  the HTTP client deserialises, so appending the user's own id succeeds.
- Users.GetUserFollowing: the follow collection is modelled as a set, so the
  order of the returned list is not modelled.
- File bytes: directory creation, the copy, and the `IOException` path of
  `saveFile` are not modelled; only the returned path is.
- `getUserPosts`, `getUsersByIds`, `userExists` and `uploadProfilePicture`
  are outside the modelled core.
- Posts.PostService.AddComment: the comment's id and timestamp, which the
  code takes from the comment's own defaults, are parameters.
- Document defaults: a new post has no likes, no comments and zero shares,
  a new user empty `followers` and `following`; likes are a set of user ids.
- Users.UserService.Register: one clock reading stands for both `createdAt`
  and `updatedAt`, which the code reads from the clock separately.
- Posts.PostService.CreatePost: one clock reading stands for both `createdAt`
  and `updatedAt`, which the code reads from the clock separately.
- Messages.ValueOf: the constants TEXT, IMAGE, VIDEO and FILE of
  `Message.MessageType` are taken as the enum's members; the enum itself is
  not part of this model.
- Messages.ValueOf: a null message type (which throws in `valueOf`) is not
  modelled; the request's type is always a string.
- Null fields other than those listed above (event discriminators, the
  comment of a post event, `targetUserId`, the follow collections, profile
  request fields, session attributes) are not modelled; for example, a null
  original file name, on which `getFileExtension` throws, is not modelled.
- Logging, console output and concurrent requests are not modelled.
- The API gateway's security configuration is outside the modelled core.

=== FILE: common.dfy ===
/** Values shared by every service model: optional values (Java's nullable
    references), results of operations that may throw, and the kinds of
    exception the services raise. */
module Common {

  /** A Java reference that may be null: `None` is null. */
  datatype Option<+T> = None | Some(value: T) {
    function GetOr(default: T): T {
      match this
      case Some(v) => v
      case None => default
    }
  }

  /** The exceptions the modelled code throws or lets escape. */
  datatype Error =
    | Runtime(message: string)        // `new RuntimeException(message)`
    | NullPointer                     // a dereference of null
    | IllegalArgument(name: string)   // `Enum.valueOf` given an unknown name
    | RemoteFailure(service: string)  // a Feign call whose remote side failed

  /** The outcome of an operation that returns a value or throws. */
  datatype Result<+T> = Ok(value: T) | Err(error: Error)

  /** The outcome of a `void` operation. */
  datatype Outcome = Pass | Fail(error: Error)
}

=== FILE: events.dfy ===
/** The domain events carried on the `user-events`, `post-events` and
    `message-events` topics. Producers and the notification listener agree on
    these field sets; the discriminator is the Java field `type`, called
    `kind` here. A field that some producer leaves unset is an `Option`. */
module Events {
  import opened Common

  /** A record on `user-events`. REGISTRATION and LOGIN events leave
      `targetUserId` unset. */
  datatype UserEvent = UserEvent(
    kind: Option<string>,
    userId: string,
    username: string,
    targetUserId: Option<string>)

  /** A record on `post-events`. A like leaves `comment` unset. */
  datatype PostEvent = PostEvent(
    kind: Option<string>,
    postId: string,
    postOwnerId: string,
    userId: string,
    username: string,
    comment: Option<string>)

  /** A record on `message-events`. */
  datatype MessageEvent = MessageEvent(
    kind: Option<string>,
    conversationId: string,
    senderId: string,
    senderName: string,
    receiverId: string)
}

=== FILE: file_storage.dfy ===
/** The naming half of the post service's file store: the extension taken from
    an upload's original name, the unique stored name built from a random UUID,
    and the public path returned to the caller. The UUID is a parameter; the
    directory creation and the byte copy are not modelled. */
module FileStorage {

  const HexDigits := "0123456789abcdef"

  /** The canonical text form of a UUID (`UUID.toString()`): 36 characters,
      lower-case hex digits with dashes at positions 8, 13, 18 and 23. */
  predicate IsUuidText(u: string) {
    && |u| == 36
    && forall i :: 0 <= i < |u| ==>
         if i == 8 || i == 13 || i == 18 || i == 23 then u[i] == '-' else u[i] in HexDigits
  }

  /** Java's `String.lastIndexOf(char)`: the largest index holding `c`, or -1. */
  function LastIndexOf(s: string, c: char): (r: int)
    ensures -1 <= r < |s|
    ensures r >= 0 ==> s[r] == c
    ensures forall i :: r < i < |s| ==> s[i] != c
  {
    if |s| == 0 then -1
    else if s[|s| - 1] == c then |s| - 1
    else LastIndexOf(s[..|s| - 1], c)
  }

  /** `getFileExtension`: the text after the last dot, provided that dot is not
      the first character; otherwise empty. */
  function GetFileExtension(filename: string): (ext: string)
    ensures '.' !in ext
    ensures ext == "" <==> |filename| == 0 || '.' !in filename[1..] || filename[|filename| - 1] == '.'
    ensures ext != "" ==>
              && |ext| + 1 < |filename|
              && filename[|filename| - |ext| - 1] == '.'
              && filename[|filename| - |ext|..] == ext
  {
    var idx := LastIndexOf(filename, '.');
    if idx > 0 then filename[idx + 1..] else ""
  }

  /** The name under which an upload is stored: the UUID, followed by a dot and
      the extension when there is one. */
  function StoredName(uuid: string, ext: string): (name: string)
    requires IsUuidText(uuid) && '.' !in ext
    ensures |name| >= 36 && name[..36] == uuid
    ensures name[|name| - 1] != '.'
    ensures ext == "" <==> name == uuid
    ensures ext != "" ==> name[36..] == "." + ext
  {
    uuid + (if ext == "" then "" else "." + ext)
  }

  /** `saveFile`'s returned path, for an upload whose original name is
      `filename`, placed in `subfolder` under the UUID `uuid`. */
  function SaveFile(filename: string, subfolder: string, uuid: string): (path: string)
    requires IsUuidText(uuid) && '.' !in subfolder
    ensures var dir := "/uploads/" + subfolder + "/";
            && |path| >= |dir| + 36
            && path[..|dir|] == dir
            && path[|dir|..|dir| + 36] == uuid
            && path[|dir|..] == StoredName(uuid, GetFileExtension(filename))
    ensures path[|path| - 1] != '.'
    ensures GetFileExtension(path) == GetFileExtension(filename)
  {
    var dir := "/uploads/" + subfolder + "/";
    var ext := GetFileExtension(filename);
    StoredPathShape(dir, uuid, ext);
    StoredNameKeepsExtension(dir, uuid, ext);
    dir + StoredName(uuid, ext)
  }

  /** `saveImage`: uploads go to the `images` subfolder. */
  function SaveImage(filename: string, uuid: string): (path: string)
    requires IsUuidText(uuid)
    ensures |path| > 16 && path[..16] == "/uploads/images/"
    ensures path[16..] == StoredName(uuid, GetFileExtension(filename))
    ensures GetFileExtension(path) == GetFileExtension(filename)
  {
    var dir := "/uploads/" + "images" + "/";
    assert dir == "/uploads/images/" && |dir| == 16;
    SaveFile(filename, "images", uuid)
  }

  /** `saveVideo`: uploads go to the `videos` subfolder. */
  function SaveVideo(filename: string, uuid: string): (path: string)
    requires IsUuidText(uuid)
    ensures |path| > 16 && path[..16] == "/uploads/videos/"
    ensures path[16..] == StoredName(uuid, GetFileExtension(filename))
    ensures GetFileExtension(path) == GetFileExtension(filename)
  {
    var dir := "/uploads/" + "videos" + "/";
    assert dir == "/uploads/videos/" && |dir| == 16;
    SaveFile(filename, "videos", uuid)
  }

  /** Appending a dot-free text to a text moves the last dot only if the
      appended text holds one. */
  lemma {:induction false} LastIndexOfAppend(s: string, t: string, c: char)
    requires c !in t
    ensures LastIndexOf(s + t, c) == LastIndexOf(s, c)
    decreases |t|
  {
    if |t| == 0 {
      assert s + t == s;
    } else {
      var u := s + t;
      assert u[|u| - 1] == t[|t| - 1];
      assert u[..|u| - 1] == s + t[..|t| - 1];
      LastIndexOfAppend(s, t[..|t| - 1], c);
    }
  }

  /** The extension of a stored path is the extension it was given, whatever
      dot-free directory precedes the UUID. */
  lemma StoredNameKeepsExtension(dir: string, uuid: string, ext: string)
    requires IsUuidText(uuid) && '.' !in ext && '.' !in dir
    ensures GetFileExtension(dir + StoredName(uuid, ext)) == ext
  {
    assert '.' !in uuid by {
      forall i | 0 <= i < |uuid| ensures uuid[i] != '.' { }
    }
    var head := dir + uuid;
    assert '.' !in head;
    if ext == "" {
      assert dir + StoredName(uuid, ext) == head;
    } else {
      var full := head + "." + ext;
      assert dir + StoredName(uuid, ext) == full;
      LastIndexOfAppend(head + ".", ext, '.');
      assert (head + ".")[|head|] == '.';
      assert LastIndexOf(head + ".", '.') == |head|;
      assert full[|head| + 1..] == ext;
    }
  }

  /** A stored path is the directory followed by the stored name, which
      starts with the UUID; it never ends in a dot. */
  lemma StoredPathShape(dir: string, uuid: string, ext: string)
    requires IsUuidText(uuid) && '.' !in ext
    ensures var path := dir + StoredName(uuid, ext);
            && |path| >= |dir| + 36
            && path[..|dir|] == dir
            && path[|dir|..|dir| + 36] == uuid
            && path[|dir|..] == StoredName(uuid, ext)
            && path[|path| - 1] != '.'
  {
    var name := StoredName(uuid, ext);
    assert (dir + name)[..|dir|] == dir;
    assert (dir + name)[|dir|..|dir| + 36] == name[..36];
    assert (dir + name)[|dir + name| - 1] == name[|name| - 1];
  }

  /** A stored name keeps the extension of the original upload's name. */
  lemma StoredNameRoundTrip(filename: string, uuid: string)
    requires IsUuidText(uuid)
    ensures GetFileExtension(StoredName(uuid, GetFileExtension(filename))) == GetFileExtension(filename)
  {
    var ext := GetFileExtension(filename);
    StoredNameKeepsExtension("", uuid, ext);
    assert "" + StoredName(uuid, ext) == StoredName(uuid, ext);
  }

  /** A name without a dot, or whose only dot leads it (".bashrc"), has no
      extension. */
  lemma NoExtensionWithoutInnerDot(filename: string)
    requires '.' !in filename || (filename[0] == '.' && '.' !in filename[1..])
    ensures GetFileExtension(filename) == ""
  {
  }

  /** A name ending in a dot ("a.") has an empty extension. */
  lemma TrailingDotGivesNoExtension(filename: string)
    requires |filename| > 0 && filename[|filename| - 1] == '.'
    ensures GetFileExtension(filename) == ""
  {
  }
}

=== FILE: messages.dfy ===
/** The message service: building and saving a direct message, handing it to
    the (opaque) conversation service, pushing it to the receiver's live
    session, and fetching a conversation's messages. The conversation
    service's calls are recorded in order and their answers are parameters;
    the messaging template is a `Broker` that records every push. */
module Messages {
  import opened Common

  /** `Message.MessageType`. */
  datatype MessageType = TEXT | IMAGE | VIDEO | FILE

  /** The enum constant's name, as `toString()` renders it. */
  function TypeName(t: MessageType): string {
    match t
    case TEXT => "TEXT"
    case IMAGE => "IMAGE"
    case VIDEO => "VIDEO"
    case FILE => "FILE"
  }

  /** `MessageType.valueOf`: exact, case-sensitive match of a constant name. */
  function ValueOf(name: string): (r: Result<MessageType>)
    ensures r.Ok? <==> name in {"TEXT", "IMAGE", "VIDEO", "FILE"}
    ensures r.Err? ==> r.error == IllegalArgument(name)
  {
    if name == "TEXT" then Ok(TEXT)
    else if name == "IMAGE" then Ok(IMAGE)
    else if name == "VIDEO" then Ok(VIDEO)
    else if name == "FILE" then Ok(FILE)
    else Err(IllegalArgument(name))
  }

  /** `valueOf` and `toString` are inverse. */
  lemma TypeNameRoundTrip(t: MessageType, name: string)
    ensures ValueOf(TypeName(t)) == Ok(t)
    ensures ValueOf(name).Ok? ==> TypeName(ValueOf(name).value) == name
  {
  }

  /** A stored message. */
  datatype Message = Message(
    id: string,
    conversationId: string,
    senderId: string,
    senderName: string,
    senderProfilePicture: Option<string>,
    receiverId: string,
    content: string,
    kind: MessageType,
    mediaUrl: Option<string>,
    createdAt: int,
    isRead: bool,
    readAt: Option<int>)

  /** What clients receive; the type is rendered as its name. */
  datatype MessageResponse = MessageResponse(
    id: string,
    conversationId: string,
    senderId: string,
    senderName: string,
    senderProfilePicture: Option<string>,
    receiverId: string,
    content: string,
    kind: string,
    mediaUrl: Option<string>,
    isRead: bool,
    createdAt: int,
    readAt: Option<int>)

  datatype MessageRequest = MessageRequest(
    receiverId: string, content: string, kind: string, mediaUrl: Option<string>)

  /** What the user service reports about a sender. */
  datatype Sender = Sender(username: string, profilePicture: Option<string>)

  /** A payload on a user queue: a bare message response, or a wrapped
      frame (`WebSocketMessage`). */
  datatype Payload =
    | ResponsePayload(response: MessageResponse)
    | Frame(kind: string, message: Option<MessageResponse>, userId: Option<string>)

  /** One `convertAndSendToUser(user, destination, payload)`. */
  datatype Push = Push(user: string, destination: string, payload: Payload)

  /** A call into the conversation service, whose behaviour is not modelled. */
  datatype ConversationCall =
    | FindOrCreate(userA: string, userB: string)
    | UpdateAfterMessage(conversationId: string, message: Message, receiverId: string)
    | MarkAsRead(conversationId: string, userId: string)

  const UserServiceDown := RemoteFailure("user-service")
  const SendFailed := Runtime("MessagingException")
  const MessagesQueue := "/queue/messages"

  /** `mapToResponse`. */
  function MapToResponse(m: Message): (r: MessageResponse)
    ensures r.id == m.id && r.conversationId == m.conversationId
    ensures r.senderId == m.senderId && r.receiverId == m.receiverId
    ensures r.senderName == m.senderName && r.senderProfilePicture == m.senderProfilePicture
    ensures r.content == m.content && r.mediaUrl == m.mediaUrl
    ensures r.isRead == m.isRead && r.createdAt == m.createdAt && r.readAt == m.readAt
    ensures ValueOf(r.kind) == Ok(m.kind)
  {
    MessageResponse(m.id, m.conversationId, m.senderId, m.senderName, m.senderProfilePicture,
                    m.receiverId, m.content, TypeName(m.kind), m.mediaUrl, m.isRead,
                    m.createdAt, m.readAt)
  }

  /** `Page.map(this::mapToResponse)`. */
  function MapToResponses(ms: seq<Message>): (r: seq<MessageResponse>)
    ensures |r| == |ms|
    ensures forall i :: 0 <= i < |ms| ==> r[i] == MapToResponse(ms[i])
  {
    if ms == [] then [] else [MapToResponse(ms[0])] + MapToResponses(ms[1..])
  }

  /** The response copies every field: two messages with the same response
      are the same message. */
  lemma ResponseIsLossless(m1: Message, m2: Message)
    requires MapToResponse(m1) == MapToResponse(m2)
    ensures m1 == m2
  {
    TypeNameRoundTrip(m1.kind, "");
    TypeNameRoundTrip(m2.kind, "");
    assert ValueOf(TypeName(m1.kind)) == Ok(m2.kind);
  }

  /** The message `sendMessage` builds: conversation from the conversation
      service, sender name and picture from the user service, the rest from
      the request, unread. */
  function BuildMessage(id: string, conversationId: string, senderId: string, sender: Sender,
                        req: MessageRequest, kind: MessageType, now: int): (m: Message)
    ensures m.id == id && m.conversationId == conversationId && m.senderId == senderId
    ensures m.receiverId == req.receiverId && m.content == req.content && m.mediaUrl == req.mediaUrl
    ensures m.senderName == sender.username && m.senderProfilePicture == sender.profilePicture
    ensures m.kind == kind && m.createdAt == now && !m.isRead && m.readAt.None?
  {
    Message(id, conversationId, senderId, sender.username, sender.profilePicture, req.receiverId,
            req.content, kind, req.mediaUrl, now, false, None)
  }

  /** A page as the message store's newest-first query returns it: stored
      messages of one conversation, newest first. */
  ghost predicate NewestFirstPage(page: seq<Message>, messages: map<string, Message>, conversationId: string) {
    && (forall i :: 0 <= i < |page| ==>
          page[i].id in messages && messages[page[i].id] == page[i] && page[i].conversationId == conversationId)
    && (forall i, j :: 0 <= i < j < |page| ==> page[i].createdAt >= page[j].createdAt)
  }

  /** The messaging template: every push it delivers, in order. */
  class Broker {
    var sent: seq<Push>

    constructor ()
      ensures sent == []
    {
      sent := [];
    }

    /** `convertAndSendToUser`; `fails` says whether the transport throws. */
    method ConvertAndSendToUser(user: string, destination: string, payload: Payload, fails: bool)
      returns (r: Outcome)
      modifies this
      ensures r == (if fails then Fail(SendFailed) else Pass)
      ensures sent == old(sent) + (if fails then [] else [Push(user, destination, payload)])
    {
      if fails {
        return Fail(SendFailed);
      }
      sent := sent + [Push(user, destination, payload)];
      r := Pass;
    }
  }

  /** The service object: the message store, the calls made to the
      conversation service, and the messaging template. */
  class MessageService {
    var messages: map<string, Message>
    var conversationCalls: seq<ConversationCall>
    const broker: Broker

    constructor (broker: Broker)
      ensures this.broker == broker && messages == map[] && conversationCalls == []
    {
      this.broker := broker;
      messages := map[];
      conversationCalls := [];
    }

    /** `sendMessage`. The sender lookup comes first and a failure there
        changes nothing; the type is parsed after the conversation lookup but
        before the save; the conversation update follows the save; a failed
        live push is swallowed. `conversationId` is what
        `findOrCreateConversation` answers, `newId` the id the store assigns,
        `pushFails` whether the push throws. */
    method SendMessage(senderId: string, req: MessageRequest, directory: map<string, Sender>,
                       conversationId: string, newId: string, now: int, pushFails: bool)
      returns (r: Result<MessageResponse>)
      requires newId !in messages
      modifies this, broker
      ensures senderId !in directory ==>
                && r == Err(UserServiceDown) && messages == old(messages)
                && conversationCalls == old(conversationCalls) && broker.sent == old(broker.sent)
      ensures senderId in directory && ValueOf(req.kind).Err? ==>
                && r == Err(IllegalArgument(req.kind)) && messages == old(messages)
                && conversationCalls == old(conversationCalls) + [FindOrCreate(senderId, req.receiverId)]
                && broker.sent == old(broker.sent)
      ensures senderId in directory && ValueOf(req.kind).Ok? ==>
                var m := BuildMessage(newId, conversationId, senderId, directory[senderId], req,
                                      ValueOf(req.kind).value, now);
                && messages == old(messages)[newId := m]
                && conversationCalls == old(conversationCalls) +
                     [FindOrCreate(senderId, req.receiverId), UpdateAfterMessage(conversationId, m, req.receiverId)]
                && r == Ok(MapToResponse(m))
                && broker.sent == old(broker.sent) +
                     (if pushFails then [] else [Push(req.receiverId, MessagesQueue, ResponsePayload(MapToResponse(m)))])
    {
      if senderId !in directory {
        return Err(UserServiceDown);
      }
      var sender := directory[senderId];
      conversationCalls := conversationCalls + [FindOrCreate(senderId, req.receiverId)];
      var kind := ValueOf(req.kind);
      if kind.Err? {
        return Err(kind.error);
      }
      var message := BuildMessage(newId, conversationId, senderId, sender, req, kind.value, now);
      messages := messages[newId := message];
      conversationCalls := conversationCalls + [UpdateAfterMessage(conversationId, message, req.receiverId)];
      var response := MapToResponse(message);
      var pushed := broker.ConvertAndSendToUser(req.receiverId, MessagesQueue, ResponsePayload(response), pushFails);
      r := Ok(response);
    }

    /** `getConversationMessages`: the page is fetched first and returned as
        fetched; only then is the conversation marked read for `userId`.
        `page` is the store's answer to the newest-first query, and
        `storeAfterMark` the message store as the conversation service's
        `markAsRead` leaves it. */
    method GetConversationMessages(conversationId: string, userId: string, page: seq<Message>,
                                   storeAfterMark: map<string, Message>)
      returns (r: seq<MessageResponse>)
      requires NewestFirstPage(page, messages, conversationId)
      modifies this
      ensures messages == storeAfterMark
      ensures conversationCalls == old(conversationCalls) + [MarkAsRead(conversationId, userId)]
      ensures |r| == |page|
      ensures forall i :: 0 <= i < |r| ==> r[i] == MapToResponse(old(messages)[page[i].id])
      ensures forall i, j :: 0 <= i < j < |r| ==> r[i].createdAt >= r[j].createdAt
    {
      r := MapToResponses(page);
      conversationCalls := conversationCalls + [MarkAsRead(conversationId, userId)];
      messages := storeAfterMark;
    }
  }
}

=== FILE: notification_listener.dfy ===
/** The notification service's event listener: each inbound domain event is
    mapped to at most one `NotificationRequest`, which is what the listener
    hands to the (opaque) notification service's `createNotification`. */
module NotificationListener {
  import opened Common
  import opened Events

  /** The request handed to `createNotification`. `userId` is the recipient;
      it is copied from an event field that may be unset, so it may be null. */
  datatype NotificationRequest = NotificationRequest(
    userId: Option<string>,
    senderId: string,
    kind: string,
    title: string,
    message: string,
    targetId: string,
    metadata: Option<map<string, string>>)

  /** What one listener invocation does: nothing, exactly one
      `createNotification` call, or an exception. */
  datatype Dispatch = Ignored | Created(request: NotificationRequest) | Failed(error: Error)

  // The discriminators the listener recognises.
  const UserFollowed := "USER_FOLLOWED"
  const PostLiked := "POST_LIKED"
  const PostCommented := "POST_COMMENTED"
  const NewMessage := "NEW_MESSAGE"

  /** `createFollowNotification`: the followed user hears about the follower. */
  function FollowNotification(e: UserEvent): (r: NotificationRequest)
    ensures r.userId == e.targetUserId && r.senderId == e.userId
    ensures r.kind == "FOLLOW" && r.title == "New Follower"
    ensures r.message == e.username + " started following you"
    ensures r.targetId == e.userId && r.metadata.None?
  {
    NotificationRequest(e.targetUserId, e.userId, "FOLLOW", "New Follower",
                        e.username + " started following you", e.userId, None)
  }

  /** `createLikeNotification`: the post owner hears about the like. */
  function LikeNotification(e: PostEvent): (r: NotificationRequest)
    ensures r.userId == Some(e.postOwnerId) && r.senderId == e.userId
    ensures r.kind == "LIKE_POST" && r.title == "New Like"
    ensures r.message == e.username + " liked your post"
    ensures r.targetId == e.postId && r.metadata.None?
  {
    NotificationRequest(Some(e.postOwnerId), e.userId, "LIKE_POST", "New Like",
                        e.username + " liked your post", e.postId, None)
  }

  /** `createCommentNotification`: the only builder that sets metadata, a
      one-entry map holding the comment text. */
  function CommentNotification(e: PostEvent, comment: string): (r: NotificationRequest)
    ensures r.userId == Some(e.postOwnerId) && r.senderId == e.userId
    ensures r.kind == "COMMENT" && r.title == "New Comment"
    ensures r.message == e.username + " commented on your post"
    ensures r.targetId == e.postId
    ensures r.metadata.Some? && r.metadata.value.Keys == {"comment"}
    ensures r.metadata.value["comment"] == comment
  {
    NotificationRequest(Some(e.postOwnerId), e.userId, "COMMENT", "New Comment",
                        e.username + " commented on your post", e.postId,
                        Some(map["comment" := comment]))
  }

  /** `createMessageNotification`: the receiver hears about the message; the
      notification points at the conversation. */
  function MessageNotification(e: MessageEvent): (r: NotificationRequest)
    ensures r.userId == Some(e.receiverId) && r.senderId == e.senderId
    ensures r.kind == "MESSAGE" && r.title == "New Message"
    ensures r.message == e.senderName + " sent you a message"
    ensures r.targetId == e.conversationId && r.metadata.None?
  {
    NotificationRequest(Some(e.receiverId), e.senderId, "MESSAGE", "New Message",
                        e.senderName + " sent you a message", e.conversationId, None)
  }

  /** `handleUserEvent`: a `switch` on the discriminator. Java's string
      `switch` throws on a null discriminator; any other unmatched value falls
      through silently. */
  function HandleUserEvent(e: UserEvent): (d: Dispatch)
    ensures e.kind == None <==> d.Failed?
    ensures d.Failed? ==> d.error == NullPointer
    ensures d.Created? <==> e.kind == Some(UserFollowed)
    ensures d.Created? ==> d.request == FollowNotification(e) && d.request.metadata.None?
  {
    match e.kind
    case None => Failed(NullPointer)
    case Some(k) => if k == UserFollowed then Created(FollowNotification(e)) else Ignored
  }

  /** `handlePostEvent`. A comment event whose comment is null fails inside
      the builder, because `Map.of` rejects null values. */
  function HandlePostEvent(e: PostEvent): (d: Dispatch)
    ensures d.Failed? <==> e.kind == None || (e.kind == Some(PostCommented) && e.comment == None)
    ensures d.Failed? ==> d.error == NullPointer
    ensures d.Ignored? <==> e.kind.Some? && e.kind.value != PostLiked && e.kind.value != PostCommented
    ensures e.kind == Some(PostLiked) ==> d == Created(LikeNotification(e))
    ensures e.kind == Some(PostCommented) && e.comment.Some? ==>
              d == Created(CommentNotification(e, e.comment.value))
    ensures d.Created? ==> (d.request.metadata.Some? <==> e.kind == Some(PostCommented))
  {
    match e.kind
    case None => Failed(NullPointer)
    case Some(k) =>
      if k == PostLiked then Created(LikeNotification(e))
      else if k == PostCommented then
        (match e.comment
         case None => Failed(NullPointer)
         case Some(c) => Created(CommentNotification(e, c)))
      else Ignored
  }

  /** `handleMessageEvent`: an `equals` test with the constant on the left, so
      a null discriminator is simply not a match. */
  function HandleMessageEvent(e: MessageEvent): (d: Dispatch)
    ensures !d.Failed?
    ensures d.Created? <==> e.kind == Some(NewMessage)
    ensures d.Created? ==> d.request == MessageNotification(e) && d.request.metadata.None?
  {
    if e.kind == Some(NewMessage) then Created(MessageNotification(e)) else Ignored
  }

  /** Nothing compares sender and recipient: a user who likes their own post
      is sent a notification about it. */
  lemma SelfLikeNotifiesOwner(e: PostEvent)
    requires e.kind == Some(PostLiked) && e.postOwnerId == e.userId
    ensures HandlePostEvent(e).Created?
    ensures HandlePostEvent(e).request.userId == Some(HandlePostEvent(e).request.senderId)
  {
  }
}

=== FILE: pipeline.dfy ===
/** How the services fit together: the events the user and post services
    publish, read by the notification listener, and the follow list the user
    service hands to the post service's feed. The producers and the listener
    use different discriminators for the same facts, so only likes reach the
    notification service; these lemmas state that outright. */
module Pipeline {
  import opened Common
  import opened Events
  import NotificationListener
  import Users
  import Posts

  /** The requests the listener hands to `createNotification` while it reads
      `log` in order; an ignored or failing event adds none. */
  function UserNotifications(log: seq<UserEvent>): seq<NotificationListener.NotificationRequest> {
    if log == [] then []
    else
      var d := NotificationListener.HandleUserEvent(log[0]);
      (if d.Created? then [d.request] else []) + UserNotifications(log[1..])
  }

  function PostNotifications(log: seq<PostEvent>): seq<NotificationListener.NotificationRequest> {
    if log == [] then []
    else
      var d := NotificationListener.HandlePostEvent(log[0]);
      (if d.Created? then [d.request] else []) + PostNotifications(log[1..])
  }

  /** The number of likes in a post-events log. */
  function LikeCount(log: seq<PostEvent>): nat {
    if log == [] then 0
    else (if log[0].kind == Some("POST_LIKED") then 1 else 0) + LikeCount(log[1..])
  }

  /** A follow is published as FOLLOW, but the listener waits for
      USER_FOLLOWED: the followed user is never notified. */
  lemma FollowIsNeverNotified(current: string, username: string, target: string)
    ensures NotificationListener.HandleUserEvent(Users.FollowEvent(current, username, target))
            == NotificationListener.Ignored
  {
  }

  /** No log the user service can write produces a single notification. */
  lemma {:induction false} UserLogNeverNotifies(log: seq<UserEvent>)
    requires forall i :: 0 <= i < |log| ==> Users.Published(log[i])
    ensures UserNotifications(log) == []
  {
    if log != [] {
      assert Users.Published(log[0]);
      UserLogNeverNotifies(log[1..]);
    }
  }

  /** The user service's own event log never produces a notification. */
  lemma UserServiceNeverNotifies(service: Users.UserService)
    requires service.Valid()
    ensures UserNotifications(service.events) == []
  {
    UserLogNeverNotifies(service.events);
  }

  /** A like reaches the post's owner, from the liker, about the post. */
  lemma LikeNotifiesOwner(postId: string, ownerId: string, userId: string, username: string)
    ensures var d := NotificationListener.HandlePostEvent(Posts.LikeEvent(postId, ownerId, userId, username));
            && d.Created?
            && d.request.userId == Some(ownerId) && d.request.senderId == userId
            && d.request.targetId == postId && d.request.kind == "LIKE_POST"
  {
  }

  /** A comment is published as COMMENT, but the listener waits for
      POST_COMMENTED: the comment text never reaches a notification. */
  lemma CommentIsNeverNotified(postId: string, ownerId: string, userId: string, username: string, content: string)
    ensures NotificationListener.HandlePostEvent(Posts.CommentEvent(postId, ownerId, userId, username, content))
            == NotificationListener.Ignored
  {
  }

  /** Over any log the post service can write, there is exactly one
      notification per like, each a like notification, and none carries
      metadata. */
  lemma {:induction false} PostLogNotifiesLikesOnly(log: seq<PostEvent>)
    requires forall i :: 0 <= i < |log| ==> Posts.Published(log[i])
    ensures |PostNotifications(log)| == LikeCount(log)
    ensures forall i :: 0 <= i < |PostNotifications(log)| ==>
              PostNotifications(log)[i].kind == "LIKE_POST" && PostNotifications(log)[i].metadata.None?
  {
    if log != [] {
      assert Posts.Published(log[0]);
      PostLogNotifiesLikesOnly(log[1..]);
    }
  }

  /** The feed the post service builds from the user service's follow list
      holds exactly the live posts of the people the user follows, and the
      user's own. */
  lemma FeedFollowsGraph(users: Users.Store, posts: Posts.PostStore, userId: string, following: seq<string>)
    requires Users.GetUserFollowing(users, userId).Ok?
    requires forall x :: x in following <==> x in Users.GetUserFollowing(users, userId).value
    ensures Posts.GetFeed(posts, Some(following), userId).Ok?
    ensures forall id :: id in Posts.GetFeed(posts, Some(following), userId).value <==>
              && id in posts && !posts[id].deleted
              && (Users.Follows(users, userId, posts[id].userId) || posts[id].userId == userId)
  {
    var feed := Posts.GetFeed(posts, Some(following), userId).value;
    forall id ensures id in feed <==>
        && id in posts && !posts[id].deleted
        && (Users.Follows(users, userId, posts[id].userId) || posts[id].userId == userId)
    {
      if id in posts {
        var author := posts[id].userId;
        assert author in Posts.FeedAuthors(following, userId) <==> author in following || author == userId;
      }
    }
  }

  /** Once `followUser` succeeds, the followed user's live posts are in the
      follower's feed. */
  lemma FollowBringsPostsIntoFeed(users: Users.Store, posts: Posts.PostStore, current: string, target: string,
                                  following: seq<string>, id: string)
    requires Users.FollowCheck(users, current, target).Pass?
    requires Users.GetUserFollowing(Users.Followed(users, current, target), current).Ok?
    requires forall x :: x in following <==>
               x in Users.GetUserFollowing(Users.Followed(users, current, target), current).value
    requires id in posts && !posts[id].deleted && posts[id].userId == target
    ensures id in Posts.GetFeed(posts, Some(following), current).value
  {
    var after := Users.Followed(users, current, target);
    assert Users.Follows(after, current, target);
    FeedFollowsGraph(after, posts, current, following);
  }

  /** The post service's own event log produces exactly one like
      notification per like, and nothing else. */
  lemma PostServiceNotifiesLikesOnly(service: Posts.PostService)
    requires service.Valid()
    ensures |PostNotifications(service.events)| == LikeCount(service.events)
    ensures forall i :: 0 <= i < |PostNotifications(service.events)| ==>
              PostNotifications(service.events)[i].kind == "LIKE_POST"
  {
    PostLogNotifiesLikesOnly(service.events);
  }
}

=== FILE: posts.dfy ===
/** The post service: creating posts with uploaded media, likes, comments,
    soft deletion, the feed query and the response projection. The document
    store is a map from post id to `Post`; the `post-events` topic is an
    append-only log. The user service is reached through `Directory`, the
    answers its `getUserById` would give; the clock, the UUIDs and the store's
    id generation are parameters. */
module Posts {
  import opened Common
  import opened Events
  import FileStorage

  datatype Comment = Comment(
    id: string,
    userId: string,
    username: string,
    userProfilePicture: Option<string>,
    content: string,
    createdAt: int)

  /** A stored post document. Likes are a set of user ids. */
  datatype Post = Post(
    id: string,
    userId: string,
    username: string,
    userProfilePicture: Option<string>,
    content: string,
    images: seq<string>,
    videoUrl: Option<string>,
    likes: set<string>,
    comments: seq<Comment>,
    sharesCount: int,
    deleted: bool,
    createdAt: int,
    updatedAt: int)

  datatype CommentResponse = CommentResponse(
    id: string,
    userId: string,
    username: string,
    userProfilePicture: Option<string>,
    content: string,
    createdAt: int)

  datatype PostResponse = PostResponse(
    id: string,
    userId: string,
    username: string,
    userProfilePicture: Option<string>,
    content: string,
    images: seq<string>,
    video: Option<string>,
    likesCount: nat,
    commentsCount: nat,
    sharesCount: int,
    isLiked: bool,
    recentComments: seq<CommentResponse>,
    createdAt: int)

  /** What the user service reports about a user. */
  datatype Profile = Profile(username: string, profilePicture: Option<string>)

  /** The answers the user service would give to `getUserById`; a missing
      id is a failed remote call. */
  type Directory = map<string, Profile>

  /** An uploaded file: its original name and whether it is empty. */
  datatype Upload = Upload(originalFilename: string, isEmpty: bool)

  type PostStore = map<string, Post>

  const UserServiceDown := RemoteFailure("user-service")

  // ---------------------------------------------------------------------
  // Response projection
  // ---------------------------------------------------------------------

  function ToCommentResponse(c: Comment): (r: CommentResponse)
    ensures r.id == c.id && r.userId == c.userId && r.content == c.content
    ensures r.username == c.username && r.userProfilePicture == c.userProfilePicture
    ensures r.createdAt == c.createdAt
  {
    CommentResponse(c.id, c.userId, c.username, c.userProfilePicture, c.content, c.createdAt)
  }

  /** The `map` step of the comment stream. */
  function ToCommentResponses(cs: seq<Comment>): (r: seq<CommentResponse>)
    ensures |r| == |cs|
    ensures forall i :: 0 <= i < |cs| ==> r[i] == ToCommentResponse(cs[i])
  {
    if cs == [] then [] else [ToCommentResponse(cs[0])] + ToCommentResponses(cs[1..])
  }

  function Min(a: int, b: int): int { if a <= b then a else b }

  /** The comments shown with a post: the last three, or all of them when
      there are fewer, in stored order. */
  function RecentComments(cs: seq<Comment>): (r: seq<CommentResponse>)
    ensures |r| == Min(3, |cs|)
    ensures forall i :: 0 <= i < |r| ==> r[i] == ToCommentResponse(cs[|cs| - |r| + i])
  {
    var skip := if |cs| > 3 then |cs| - 3 else 0;
    var tail := cs[skip..];
    assert |tail| == Min(3, |cs|);
    assert forall i :: 0 <= i < |tail| ==> tail[i] == cs[skip + i];
    ToCommentResponses(tail)
  }

  /** `mapToPostResponse`: the counts are collection sizes and `isLiked` is
      the viewer's membership in the likes. */
  function MapToPostResponse(p: Post, currentUserId: string): (r: PostResponse)
    ensures r.id == p.id && r.userId == p.userId && r.images == p.images && r.video == p.videoUrl
    ensures r.username == p.username && r.userProfilePicture == p.userProfilePicture
    ensures r.content == p.content && r.sharesCount == p.sharesCount && r.createdAt == p.createdAt
    ensures r.likesCount == |p.likes| && r.commentsCount == |p.comments|
    ensures r.isLiked <==> currentUserId in p.likes
    ensures r.recentComments == RecentComments(p.comments)
  {
    PostResponse(p.id, p.userId, p.username, p.userProfilePicture, p.content, p.images,
                 p.videoUrl, |p.likes|, |p.comments|, p.sharesCount, currentUserId in p.likes,
                 RecentComments(p.comments), p.createdAt)
  }

  /** A new comment becomes the last recent comment, and the oldest of three
      shown drops out. */
  lemma {:induction false} RecentCommentsSlide(cs: seq<Comment>, c: Comment)
    ensures RecentComments(cs + [c]) ==
              (if |cs| >= 3 then RecentComments(cs)[1..] else RecentComments(cs)) + [ToCommentResponse(c)]
  {
    var a := RecentComments(cs + [c]);
    var b := (if |cs| >= 3 then RecentComments(cs)[1..] else RecentComments(cs)) + [ToCommentResponse(c)];
    assert |a| == |b|;
    forall i | 0 <= i < |a| ensures a[i] == b[i] {
      if i < |a| - 1 {
        assert (cs + [c])[|cs| + 1 - |a| + i] == cs[|cs| + 1 - |a| + i];
      }
    }
  }

  // ---------------------------------------------------------------------
  // Queries
  // ---------------------------------------------------------------------

  /** `getPost`: a missing post and a soft-deleted post both fail. */
  function GetPost(posts: PostStore, postId: string, currentUserId: string): (r: Result<PostResponse>)
    ensures r.Ok? <==> postId in posts && !posts[postId].deleted
    ensures postId !in posts ==> r == Err(Runtime("Post not found"))
    ensures postId in posts && posts[postId].deleted ==> r == Err(Runtime("Post has been deleted"))
    ensures r.Ok? ==> r.value == MapToPostResponse(posts[postId], currentUserId)
  {
    if postId !in posts then Err(Runtime("Post not found"))
    else if posts[postId].deleted then Err(Runtime("Post has been deleted"))
    else Ok(MapToPostResponse(posts[postId], currentUserId))
  }

  /** The author ids `getFeed` queries: the followed ids with the user's own
      id appended. */
  function FeedAuthors(following: seq<string>, userId: string): (authors: seq<string>)
    ensures |authors| == |following| + 1 && authors[|following|] == userId
    ensures forall x :: x in authors <==> x in following || x == userId
  {
    following + [userId]
  }

  /** `getFeed`, ignoring the store's ordering and paging: every live post by
      a queried author, each projected for the requesting user. `following`
      is the user service's answer, `None` when that call failed. */
  function GetFeed(posts: PostStore, following: Option<seq<string>>, userId: string)
    : (r: Result<map<string, PostResponse>>)
    ensures r.Err? <==> following.None?
    ensures r.Ok? ==> forall id :: id in r.value <==>
              id in posts && !posts[id].deleted && posts[id].userId in FeedAuthors(following.value, userId)
    ensures r.Ok? ==> forall id :: id in r.value ==> r.value[id] == MapToPostResponse(posts[id], userId)
  {
    match following
    case None => Err(UserServiceDown)
    case Some(f) =>
      var authors := FeedAuthors(f, userId);
      Ok(map id | id in posts && !posts[id].deleted && posts[id].userId in authors
                :: MapToPostResponse(posts[id], userId))
  }

  /** A user's own live posts are always in their feed. */
  lemma OwnPostsInFeed(posts: PostStore, following: seq<string>, userId: string, id: string)
    requires id in posts && !posts[id].deleted && posts[id].userId == userId
    ensures id in GetFeed(posts, Some(following), userId).value
  {
  }

  /** After a soft delete the post is still stored but `getPost` refuses it. */
  lemma DeletedPostIsHidden(posts: PostStore, postId: string, now: int, viewer: string)
    requires postId in posts
    ensures var after := posts[postId := posts[postId].(deleted := true, updatedAt := now)];
            postId in after && GetPost(after, postId, viewer) == Err(Runtime("Post has been deleted"))
  {
  }

  /** A like is seen by the liker and counted once, however often it is
      repeated; an unlike takes it away again. */
  lemma LikeUnlikeResponses(p: Post, userId: string)
    ensures MapToPostResponse(p.(likes := p.likes + {userId}), userId).isLiked
    ensures MapToPostResponse(p.(likes := p.likes + {userId}), userId).likesCount
            == |p.likes| + (if userId in p.likes then 0 else 1)
    ensures !MapToPostResponse(p.(likes := p.likes - {userId}), userId).isLiked
    ensures userId !in p.likes ==>
              var liked := p.(likes := p.likes + {userId});
              liked.(likes := liked.likes - {userId}) == p
  {
    if userId in p.likes {
      assert p.likes + {userId} == p.likes;
    }
  }

  // ---------------------------------------------------------------------
  // Media
  // ---------------------------------------------------------------------

  /** The image loop of `createPost`: one stored path per upload, in upload
      order, each under `images` with the upload's extension. */
  method StoreImages(images: seq<Upload>, uuids: seq<string>) returns (urls: seq<string>)
    requires |uuids| == |images|
    requires forall i :: 0 <= i < |uuids| ==> FileStorage.IsUuidText(uuids[i])
    ensures |urls| == |images|
    ensures forall i :: 0 <= i < |urls| ==>
              urls[i] == FileStorage.SaveImage(images[i].originalFilename, uuids[i])
  {
    urls := [];
    var k := 0;
    while k < |images|
      invariant 0 <= k <= |images| && |urls| == k
      invariant forall i :: 0 <= i < k ==>
                  urls[i] == FileStorage.SaveImage(images[i].originalFilename, uuids[i])
    {
      var url := FileStorage.SaveImage(images[k].originalFilename, uuids[k]);
      urls := urls + [url];
      k := k + 1;
    }
  }

  /** The video step of `createPost`: stored only when present and non-empty. */
  function StoreVideo(video: Option<Upload>, uuid: string): (url: Option<string>)
    requires FileStorage.IsUuidText(uuid)
    ensures url.Some? <==> video.Some? && !video.value.isEmpty
    ensures url.Some? ==> FileStorage.GetFileExtension(url.value)
                          == FileStorage.GetFileExtension(video.value.originalFilename)
    ensures url.Some? ==> && |url.value| > 16 && url.value[..16] == "/uploads/videos/"
                          && url.value[16..] == FileStorage.StoredName(uuid, FileStorage.GetFileExtension(video.value.originalFilename))
  {
    if video.Some? && !video.value.isEmpty then Some(FileStorage.SaveVideo(video.value.originalFilename, uuid))
    else None
  }

  /** After a comment is appended, the response counts it and shows it last
      among the recent comments. */
  lemma CommentedResponse(p: Post, c: Comment, viewer: string, now: int)
    ensures var r := MapToPostResponse(p.(comments := p.comments + [c], updatedAt := now), viewer);
            && r.commentsCount == |p.comments| + 1
            && r.recentComments[|r.recentComments| - 1] == ToCommentResponse(c)
  {
    RecentCommentsSlide(p.comments, c);
  }

  /** The discriminators the post service publishes. */
  predicate Published(e: PostEvent) {
    e.kind == Some("POST_LIKED") || e.kind == Some("COMMENT")
  }

  /** The event `likePost` publishes. */
  function LikeEvent(postId: string, ownerId: string, userId: string, username: string): (e: PostEvent)
    ensures e.kind == Some("POST_LIKED") && e.postOwnerId == ownerId && e.userId == userId
    ensures e.postId == postId && e.username == username
    ensures e.comment.None?
  {
    PostEvent(Some("POST_LIKED"), postId, ownerId, userId, username, None)
  }

  /** The event `addComment` publishes; it carries the comment text. */
  function CommentEvent(postId: string, ownerId: string, userId: string, username: string,
                        content: string): (e: PostEvent)
    ensures e.kind == Some("COMMENT") && e.postOwnerId == ownerId && e.userId == userId
    ensures e.postId == postId && e.username == username
    ensures e.comment == Some(content)
  {
    PostEvent(Some("COMMENT"), postId, ownerId, userId, username, Some(content))
  }

  /** Every post is stored under its own id. */
  ghost predicate IdsMatchKeys(posts: PostStore) {
    forall id :: id in posts ==> posts[id].id == id
  }

  /** Every event in the log carries a discriminator the service publishes. */
  ghost predicate AllPublished(log: seq<PostEvent>) {
    forall i :: 0 <= i < |log| ==> Published(log[i])
  }

  /** Saving a post under its own id keeps every post under its own id. */
  lemma SaveKeepsIds(posts: PostStore, p: Post)
    requires IdsMatchKeys(posts)
    ensures IdsMatchKeys(posts[p.id := p])
  {
  }

  /** Publishing a published kind keeps the whole log published. */
  lemma PublishKeepsLog(log: seq<PostEvent>, e: PostEvent)
    requires AllPublished(log) && Published(e)
    ensures AllPublished(log + [e])
  {
    assert forall i :: 0 <= i < |log| ==> (log + [e])[i] == log[i];
  }

  /** The service object: the post store and the `post-events` log. */
  class PostService {
    var posts: PostStore
    var events: seq<PostEvent>

    ghost predicate Valid()
      reads this
    {
      IdsMatchKeys(posts) && AllPublished(events)
    }

    constructor ()
      ensures Valid() && posts == map[] && events == []
    {
      posts := map[];
      events := [];
    }

    /** `createPost`: the author is looked up first; then each image is
        stored, then the video if any, and the post is saved with no likes and
        no comments. */
    method CreatePost(userId: string, content: string, images: Option<seq<Upload>>,
                      video: Option<Upload>, directory: Directory,
                      imageUuids: seq<string>, videoUuid: string, newId: string, now: int)
      returns (r: Result<PostResponse>)
      requires Valid() && newId !in posts
      requires images.Some? ==> |imageUuids| == |images.value|
      requires forall i :: 0 <= i < |imageUuids| ==> FileStorage.IsUuidText(imageUuids[i])
      requires FileStorage.IsUuidText(videoUuid)
      modifies this
      ensures Valid() && events == old(events)
      ensures r.Err? <==> userId !in directory
      ensures r.Err? ==> r.error == UserServiceDown && posts == old(posts)
      ensures r.Ok? ==>
                && newId in posts && posts == old(posts)[newId := posts[newId]]
                && posts[newId].userId == userId && posts[newId].content == content
                && posts[newId].username == directory[userId].username
                && posts[newId].userProfilePicture == directory[userId].profilePicture
                && posts[newId].sharesCount == 0
                && |posts[newId].images| == (if images.Some? then |images.value| else 0)
                && (forall i :: 0 <= i < |posts[newId].images| ==>
                      posts[newId].images[i] == FileStorage.SaveImage(images.value[i].originalFilename, imageUuids[i]))
                && posts[newId].videoUrl == StoreVideo(video, videoUuid)
                && posts[newId].likes == {} && posts[newId].comments == [] && !posts[newId].deleted
                && posts[newId].createdAt == now && posts[newId].updatedAt == now
                && r.value == MapToPostResponse(posts[newId], userId)
    {
      if userId !in directory {
        return Err(UserServiceDown);
      }
      var user := directory[userId];
      var imageUrls: seq<string> := [];
      if images.Some? {
        imageUrls := StoreImages(images.value, imageUuids);
      }
      var videoUrl := StoreVideo(video, videoUuid);
      var post := Post(newId, userId, user.username, user.profilePicture, content, imageUrls,
                       videoUrl, {}, [], 0, false, now, now);
      SaveKeepsIds(posts, post);
      posts := posts[newId := post];
      r := Ok(MapToPostResponse(post, userId));
    }

    /** `likePost`: the like is saved before the liker is looked up, so a
        failed lookup leaves the like in place and publishes nothing. */
    method LikePost(postId: string, userId: string, directory: Directory)
      returns (r: Result<PostResponse>)
      requires Valid()
      modifies this
      ensures Valid()
      ensures postId !in old(posts) ==>
                r == Err(Runtime("Post not found")) && posts == old(posts) && events == old(events)
      ensures postId in old(posts) ==>
                && posts == old(posts)[postId := old(posts)[postId].(likes := old(posts)[postId].likes + {userId})]
                && (userId !in directory ==> r == Err(UserServiceDown) && events == old(events))
                && (userId in directory ==>
                      && events == old(events) + [LikeEvent(postId, old(posts)[postId].userId, userId, directory[userId].username)]
                      && r == Ok(MapToPostResponse(posts[postId], userId))
                      && r.value.isLiked)
    {
      if postId !in posts {
        return Err(Runtime("Post not found"));
      }
      var post := posts[postId];
      post := post.(likes := post.likes + {userId});
      posts := posts[postId := post];
      if userId !in directory {
        return Err(UserServiceDown);
      }
      var user := directory[userId];
      events := events + [LikeEvent(postId, post.userId, userId, user.username)];
      r := Ok(MapToPostResponse(post, userId));
    }

    /** `unlikePost`: removes the like and publishes nothing. */
    method UnlikePost(postId: string, userId: string) returns (r: Result<PostResponse>)
      requires Valid()
      modifies this
      ensures Valid() && events == old(events)
      ensures postId !in old(posts) ==> r == Err(Runtime("Post not found")) && posts == old(posts)
      ensures postId in old(posts) ==>
                && posts == old(posts)[postId := old(posts)[postId].(likes := old(posts)[postId].likes - {userId})]
                && r == Ok(MapToPostResponse(posts[postId], userId))
                && !r.value.isLiked
    {
      if postId !in posts {
        return Err(Runtime("Post not found"));
      }
      var post := posts[postId];
      post := post.(likes := post.likes - {userId});
      posts := posts[postId := post];
      r := Ok(MapToPostResponse(post, userId));
    }

    /** `addComment`: one comment carrying the caller's id and text is
        appended at the end, and a COMMENT event carries the text. Neither the
        deleted flag nor the comment text is checked. */
    method AddComment(postId: string, userId: string, content: string, directory: Directory,
                      commentId: string, commentCreatedAt: int, now: int)
      returns (r: Result<PostResponse>)
      requires Valid()
      modifies this
      ensures Valid()
      ensures r.Err? ==> posts == old(posts) && events == old(events)
      ensures postId !in old(posts) ==> r == Err(Runtime("Post not found"))
      ensures postId in old(posts) && userId !in directory ==> r == Err(UserServiceDown)
      ensures postId in old(posts) && userId in directory ==>
                var before := old(posts)[postId];
                var c := Comment(commentId, userId, directory[userId].username,
                                 directory[userId].profilePicture, content, commentCreatedAt);
                && posts == old(posts)[postId := before.(comments := before.comments + [c], updatedAt := now)]
                && events == old(events) + [CommentEvent(postId, before.userId, userId, directory[userId].username, content)]
                && r == Ok(MapToPostResponse(posts[postId], userId))
                && r.value.commentsCount == |before.comments| + 1
                && r.value.recentComments[|r.value.recentComments| - 1] == ToCommentResponse(c)
    {
      if postId !in posts {
        return Err(Runtime("Post not found"));
      }
      var post := posts[postId];
      if userId !in directory {
        return Err(UserServiceDown);
      }
      var user := directory[userId];
      var comment := Comment(commentId, userId, user.username, user.profilePicture, content, commentCreatedAt);
      CommentedResponse(post, comment, userId, now);
      post := post.(comments := post.comments + [comment], updatedAt := now);
      SaveKeepsIds(posts, post);
      posts := posts[postId := post];
      var event := CommentEvent(postId, post.userId, userId, user.username, content);
      PublishKeepsLog(events, event);
      events := events + [event];
      r := Ok(MapToPostResponse(post, userId));
    }

    /** `deletePost`: only the owner may delete, and deletion only sets the
        flag and the timestamp; the document stays in the store. */
    method DeletePost(postId: string, userId: string, now: int) returns (r: Outcome)
      requires Valid()
      modifies this
      ensures Valid() && events == old(events) && posts.Keys == old(posts).Keys
      ensures postId !in old(posts) ==> r == Fail(Runtime("Post not found")) && posts == old(posts)
      ensures postId in old(posts) && old(posts)[postId].userId != userId ==>
                r == Fail(Runtime("You can only delete your own posts")) && posts == old(posts)
      ensures postId in old(posts) && old(posts)[postId].userId == userId ==>
                && r == Pass
                && posts == old(posts)[postId := old(posts)[postId].(deleted := true, updatedAt := now)]
    {
      if postId !in posts {
        return Fail(Runtime("Post not found"));
      }
      var post := posts[postId];
      if post.userId != userId {
        return Fail(Runtime("You can only delete your own posts"));
      }
      post := post.(deleted := true, updatedAt := now);
      posts := posts[postId := post];
      r := Pass;
    }
  }
}

=== FILE: users.dfy ===
/** The user service: registration and login, the follow graph, profile
    updates and the projections other services fetch. The document store is a
    map from user id to `User`; the `user-events` topic is an append-only log.
    Password hashing, token generation, the clock and the store's id
    generation are parameters. */
module Users {
  import opened Common
  import opened Events

  /** A stored user document. `followers` and `following` are `None` when the
      document holds no collection (a Java null). */
  datatype User = User(
    id: string,
    username: string,
    email: string,
    password: string,
    fullName: Option<string>,
    bio: Option<string>,
    profilePicture: Option<string>,
    coverPicture: Option<string>,
    followers: Option<set<string>>,
    following: Option<set<string>>,
    verified: bool,
    createdAt: int,
    updatedAt: int,
    lastSeen: Option<int>)

  /** What `getUserById` returns to other services. */
  datatype UserDTO = UserDTO(
    id: string,
    username: string,
    email: string,
    fullName: Option<string>,
    profilePicture: Option<string>,
    bio: Option<string>,
    followersCount: nat,
    followingCount: nat)

  /** What `getUserProfile` (and so `updateProfile`) returns. */
  datatype UserProfileResponse = UserProfileResponse(
    id: string,
    username: string,
    fullName: Option<string>,
    bio: Option<string>,
    profilePicture: Option<string>,
    coverPicture: Option<string>,
    followersCount: nat,
    followingCount: nat,
    isVerified: bool,
    createdAt: int)

  datatype RegisterRequest = RegisterRequest(
    username: string, email: string, password: string, fullName: Option<string>)

  datatype LoginRequest = LoginRequest(username: string, password: string)

  datatype UpdateProfileRequest = UpdateProfileRequest(fullName: Option<string>, bio: Option<string>)

  datatype AuthResponse = AuthResponse(
    token: string, userId: string, username: string, email: string, profilePicture: Option<string>)

  type Store = map<string, User>

  /** A possibly-null collection read as a set; null reads as empty. */
  function Members(s: Option<set<string>>): set<string> {
    s.GetOr({})
  }

  function Following(u: User): set<string> { Members(u.following) }

  function Followers(u: User): set<string> { Members(u.followers) }

  /** `a` follows `b` according to `a`'s document. */
  predicate Follows(users: Store, a: string, b: string) {
    a in users && b in Following(users[a])
  }

  /** The collection size, or 0 when the collection is null. */
  function SizeOrZero(s: Option<set<string>>): (n: nat)
    ensures n == |Members(s)|
    ensures s.None? ==> n == 0
  {
    match s
    case None => 0
    case Some(m) => |m|
  }

  // ---------------------------------------------------------------------
  // Store invariants
  // ---------------------------------------------------------------------

  ghost predicate KeysAreIds(users: Store) {
    forall id :: id in users ==> users[id].id == id
  }

  predicate UsernameTaken(users: Store, name: string) {
    exists id :: id in users && users[id].username == name
  }

  predicate EmailTaken(users: Store, email: string) {
    exists id :: id in users && users[id].email == email
  }

  ghost predicate UniqueUsernames(users: Store) {
    forall a, b :: a in users && b in users && users[a].username == users[b].username ==> a == b
  }

  ghost predicate UniqueEmails(users: Store) {
    forall a, b :: a in users && b in users && users[a].email == users[b].email ==> a == b
  }

  /** `b`'s document lists `a` among its followers. */
  predicate FollowedBy(users: Store, b: string, a: string) {
    b in users && a in Followers(users[b])
  }

  /** The follow graph is stored twice, once in each endpoint's document;
      the two copies agree, name only stored users, and nobody follows
      themselves. */
  ghost predicate GraphValid(users: Store) {
    && (forall a, b :: a in users && b in users ==> (Follows(users, a, b) <==> FollowedBy(users, b, a)))
    && (forall a, x :: Follows(users, a, x) ==> x in users)
    && (forall a, x :: FollowedBy(users, a, x) ==> x in users)
    && (forall a :: !Follows(users, a, a))
  }

  /** Two stores with the same users, ids, usernames and emails. */
  ghost predicate SameAccounts(a: Store, b: Store) {
    && a.Keys == b.Keys
    && forall id :: id in a ==> b[id].id == a[id].id && b[id].username == a[id].username && b[id].email == a[id].email
  }

  /** Two stores with the same users and the same follow collections. */
  ghost predicate SameGraph(a: Store, b: Store) {
    && a.Keys == b.Keys
    && forall id :: id in a ==> b[id].followers == a[id].followers && b[id].following == a[id].following
  }

  lemma SameAccountsKeepIdentity(a: Store, b: Store)
    requires SameAccounts(a, b) && KeysAreIds(a) && UniqueUsernames(a) && UniqueEmails(a)
    ensures KeysAreIds(b) && UniqueUsernames(b) && UniqueEmails(b)
  {
  }

  lemma SameGraphKeepsGraph(a: Store, b: Store)
    requires SameGraph(a, b) && GraphValid(a)
    ensures GraphValid(b)
  {
    assert forall x, y :: Follows(b, x, y) <==> Follows(a, x, y);
    assert forall x, y :: FollowedBy(b, x, y) <==> FollowedBy(a, x, y);
  }

  ghost predicate StoreValid(users: Store) {
    KeysAreIds(users) && UniqueUsernames(users) && UniqueEmails(users) && GraphValid(users)
  }

  /** `findByUsername` over a store whose usernames are unique. */
  function FindByUsername(users: Store, name: string): (r: Option<string>)
    requires UniqueUsernames(users)
    ensures r.None? <==> !UsernameTaken(users, name)
    ensures r.Some? ==> r.value in users && users[r.value].username == name
  {
    if UsernameTaken(users, name) then
      Some(var id :| id in users && users[id].username == name; id)
    else None
  }

  // ---------------------------------------------------------------------
  // Projections
  // ---------------------------------------------------------------------

  /** `getUserById`: the user's public fields and the sizes of the two
      collections, 0 for a null collection. */
  function GetUserById(users: Store, userId: string): (r: Result<UserDTO>)
    ensures r.Err? <==> userId !in users
    ensures r.Err? ==> r.error == Runtime("User not found with ID: " + userId)
    ensures r.Ok? ==>
              && r.value.id == users[userId].id
              && r.value.username == users[userId].username
              && r.value.email == users[userId].email
              && r.value.fullName == users[userId].fullName
              && r.value.profilePicture == users[userId].profilePicture
              && r.value.bio == users[userId].bio
              && r.value.followersCount == |Followers(users[userId])|
              && r.value.followingCount == |Following(users[userId])|
  {
    if userId !in users then Err(Runtime("User not found with ID: " + userId))
    else
      var u := users[userId];
      Ok(UserDTO(u.id, u.username, u.email, u.fullName, u.profilePicture, u.bio,
                 SizeOrZero(u.followers), SizeOrZero(u.following)))
  }

  /** `getUserProfile`: unlike `getUserById`, it takes the collection sizes
      without a null check, so a null collection makes it throw. */
  function GetUserProfile(users: Store, username: string): (r: Result<UserProfileResponse>)
    requires UniqueUsernames(users)
    ensures !UsernameTaken(users, username) ==> r == Err(Runtime("User not found"))
    ensures r.Ok? ==> exists id :: id in users && users[id].username == username
                        && users[id].followers.Some? && users[id].following.Some?
                        && r.value.id == users[id].id
                        && r.value.followersCount == |Followers(users[id])|
                        && r.value.followingCount == |Following(users[id])|
    ensures r.Ok? ==> forall id :: id in users && users[id].username == username ==>
                        && r.value.username == users[id].username && r.value.fullName == users[id].fullName
                        && r.value.bio == users[id].bio && r.value.profilePicture == users[id].profilePicture
                        && r.value.coverPicture == users[id].coverPicture
                        && r.value.isVerified == users[id].verified && r.value.createdAt == users[id].createdAt
    ensures UsernameTaken(users, username) && r.Err? ==> r.error == NullPointer
    ensures r.Ok? <==> exists id :: id in users && users[id].username == username
                                   && users[id].followers.Some? && users[id].following.Some?
  {
    match FindByUsername(users, username)
    case None => Err(Runtime("User not found"))
    case Some(id) =>
      var u := users[id];
      if u.followers.None? || u.following.None? then Err(NullPointer)
      else Ok(UserProfileResponse(u.id, u.username, u.fullName, u.bio, u.profilePicture,
                                  u.coverPicture, |u.followers.value|, |u.following.value|,
                                  u.verified, u.createdAt))
  }

  /** `getUserFollowing`: the ids the user follows. The follow collection is
      modelled as a set, so the order of the returned list is not modelled. */
  function GetUserFollowing(users: Store, userId: string): (r: Result<set<string>>)
    ensures r.Err? <==> userId !in users || users[userId].following.None?
    ensures userId !in users ==> r == Err(Runtime("User not found with ID: " + userId))
    ensures r.Ok? ==> forall x :: x in r.value <==> Follows(users, userId, x)
  {
    if userId !in users then Err(Runtime("User not found with ID: " + userId))
    else match users[userId].following
      case None => Err(NullPointer)
      case Some(s) => Ok(s)
  }

  // ---------------------------------------------------------------------
  // Follow graph
  // ---------------------------------------------------------------------

  /** The checks `followUser` makes, in order, before it changes anything:
      self-follow, the two lookups, and the two collection dereferences. */
  function FollowCheck(users: Store, current: string, target: string): Outcome {
    if current == target then Fail(Runtime("Cannot follow yourself"))
    else if current !in users then Fail(Runtime("User not found"))
    else if target !in users then Fail(Runtime("Target user not found"))
    else if users[current].following.None? then Fail(NullPointer)
    else if users[target].followers.None? then Fail(NullPointer)
    else Pass
  }

  /** The checks `unfollowUser` makes: the two lookups and the two collection
      dereferences, but no self check. */
  function UnfollowCheck(users: Store, current: string, target: string): Outcome {
    if current !in users then Fail(Runtime("User not found"))
    else if target !in users then Fail(Runtime("Target user not found"))
    else if users[current].following.None? then Fail(NullPointer)
    else if users[target].followers.None? then Fail(NullPointer)
    else Pass
  }

  /** The store after a successful `followUser`: exactly the pair
      (current, target) joins the follow relation, and each endpoint's
      document records it. */
  function Followed(users: Store, current: string, target: string): (r: Store)
    requires FollowCheck(users, current, target).Pass?
    ensures r.Keys == users.Keys
    ensures target in Following(r[current]) && current in Followers(r[target])
    ensures forall a, b :: Follows(r, a, b) <==> Follows(users, a, b) || (a == current && b == target)
    ensures forall b, a :: FollowedBy(r, b, a) <==> FollowedBy(users, b, a) || (a == current && b == target)
    ensures forall id :: id in users && id != current && id != target ==> r[id] == users[id]
    ensures SameAccounts(users, r)
  {
    var cu := users[current];
    var tu := users[target];
    users[current := cu.(following := Some(Following(cu) + {target}))]
         [target := tu.(followers := Some(Followers(tu) + {current}))]
  }

  /** The store after a successful `unfollowUser`. Both documents are loaded
      before either is saved, so when `current == target` the second save
      overwrites the first and only `followers` changes. */
  function Unfollowed(users: Store, current: string, target: string): (r: Store)
    requires UnfollowCheck(users, current, target).Pass?
    ensures r.Keys == users.Keys
    ensures current !in Followers(r[target])
    ensures current != target ==> target !in Following(r[current])
    ensures current != target ==>
              forall a, b :: Follows(r, a, b) <==> Follows(users, a, b) && !(a == current && b == target)
    ensures forall b, a :: FollowedBy(r, b, a) <==> FollowedBy(users, b, a) && !(a == current && b == target)
    ensures current == target ==> forall a, b :: Follows(r, a, b) <==> Follows(users, a, b)
    ensures forall id :: id in users && id != current && id != target ==> r[id] == users[id]
    ensures SameAccounts(users, r)
  {
    var cu := users[current];
    var tu := users[target];
    users[current := cu.(following := Some(Following(cu) - {target}))]
         [target := tu.(followers := Some(Followers(tu) - {current}))]
  }

  /** The discriminators the user service publishes. */
  predicate Published(e: UserEvent) {
    e.kind == Some("REGISTRATION") || e.kind == Some("LOGIN") || e.kind == Some("FOLLOW")
  }

  /** Every event in the log carries a discriminator the service publishes. */
  ghost predicate AllPublished(log: seq<UserEvent>) {
    forall i :: 0 <= i < |log| ==> Published(log[i])
  }

  /** Publishing a published kind keeps the whole log published. */
  lemma PublishKeepsLog(log: seq<UserEvent>, e: UserEvent)
    requires AllPublished(log) && Published(e)
    ensures AllPublished(log + [e])
  {
    assert forall i :: 0 <= i < |log| ==> (log + [e])[i] == log[i];
  }

  /** The event `followUser` publishes. */
  function FollowEvent(current: string, username: string, target: string): (e: UserEvent)
    ensures e.kind == Some("FOLLOW") && e.userId == current && e.targetUserId == Some(target)
    ensures e.username == username
  {
    UserEvent(Some("FOLLOW"), current, username, Some(target))
  }

  lemma FollowPreservesStore(users: Store, current: string, target: string)
    requires StoreValid(users) && FollowCheck(users, current, target).Pass?
    ensures StoreValid(Followed(users, current, target))
  {
    SameAccountsKeepIdentity(users, Followed(users, current, target));
  }

  lemma UnfollowPreservesStore(users: Store, current: string, target: string)
    requires StoreValid(users) && UnfollowCheck(users, current, target).Pass?
    ensures StoreValid(Unfollowed(users, current, target))
  {
    SameAccountsKeepIdentity(users, Unfollowed(users, current, target));
  }

  /** Unfollowing undoes a follow that was not already in place. */
  lemma UnfollowUndoesFollow(users: Store, current: string, target: string)
    requires StoreValid(users) && FollowCheck(users, current, target).Pass?
    requires !Follows(users, current, target)
    ensures UnfollowCheck(Followed(users, current, target), current, target).Pass?
    ensures Unfollowed(Followed(users, current, target), current, target) == users
  {
    var cu, tu := users[current], users[target];
    assert !FollowedBy(users, target, current);
    var fc := cu.(following := Some(Following(cu) + {target}));
    var ft := tu.(followers := Some(Followers(tu) + {current}));
    var f := users[current := fc][target := ft];
    assert Following(fc) - {target} == Following(cu);
    assert Followers(ft) - {current} == Followers(tu);
    var uc := fc.(following := Some(Following(fc) - {target}));
    var ut := ft.(followers := Some(Followers(ft) - {current}));
    assert uc == cu && ut == tu;
    assert f[current := uc][target := ut] == users;
  }

  /** Following twice is the same as following once. */
  lemma FollowIdempotent(users: Store, current: string, target: string)
    requires FollowCheck(users, current, target).Pass?
    ensures FollowCheck(Followed(users, current, target), current, target).Pass?
    ensures Followed(Followed(users, current, target), current, target) == Followed(users, current, target)
  {
    var f := Followed(users, current, target);
    assert Following(f[current]) + {target} == Following(f[current]);
    assert Followers(f[target]) + {current} == Followers(f[target]);
  }

  /** A new follow raises the target's reported follower count by one and the
      follower's following count by one. */
  lemma FollowCountsRise(users: Store, current: string, target: string)
    requires StoreValid(users) && FollowCheck(users, current, target).Pass?
    requires !Follows(users, current, target)
    ensures GetUserById(Followed(users, current, target), target).value.followersCount
            == GetUserById(users, target).value.followersCount + 1
    ensures GetUserById(Followed(users, current, target), current).value.followingCount
            == GetUserById(users, current).value.followingCount + 1
  {
    assert current !in Followers(users[target]);
  }

  /** `unfollowUser` has no self check: a user can unfollow themselves, and
      only their `followers` collection is rewritten. */
  lemma SelfUnfollowTouchesOnlyFollowers(users: Store, id: string)
    requires UnfollowCheck(users, id, id).Pass?
    ensures Unfollowed(users, id, id)[id].following == users[id].following
    ensures Unfollowed(users, id, id)[id].followers == Some(Followers(users[id]) - {id})
  {
  }

  // ---------------------------------------------------------------------
  // Registration, login and profile update
  // ---------------------------------------------------------------------

  /** The checks `register` makes, in order, with the prefix its `catch`
      block adds to every failure. */
  function RegisterCheck(users: Store, req: RegisterRequest): Outcome {
    if UsernameTaken(users, req.username) then Fail(Runtime("Registration failed: Username already exists"))
    else if EmailTaken(users, req.email) then Fail(Runtime("Registration failed: Email already exists"))
    else Pass
  }

  /** The checks `login` makes, in order. */
  function LoginCheck(users: Store, req: LoginRequest, matches: (string, string) -> bool): Outcome
    requires UniqueUsernames(users)
  {
    match FindByUsername(users, req.username)
    case None => Fail(Runtime("User not found"))
    case Some(id) =>
      if !matches(req.password, users[id].password) then Fail(Runtime("Invalid password")) else Pass
  }

  /** Adding a user whose username and email are free and whose
      collections are empty keeps the store's invariants. */
  lemma AddUserPreservesStore(users: Store, user: User)
    requires StoreValid(users) && user.id !in users
    requires !UsernameTaken(users, user.username) && !EmailTaken(users, user.email)
    requires Following(user) == {} && Followers(user) == {}
    ensures StoreValid(users[user.id := user])
  {
    var r := users[user.id := user];
    forall a, b | a in r && b in r ensures Follows(r, a, b) <==> FollowedBy(r, b, a) {
      if a != user.id {
        assert Follows(r, a, b) == Follows(users, a, b);
      }
      if b != user.id {
        assert FollowedBy(r, b, a) == FollowedBy(users, b, a);
      }
    }
    forall a, x | Follows(r, a, x) ensures x in r {
      assert Follows(users, a, x);
    }
    forall a, x | FollowedBy(r, a, x) ensures x in r {
      assert FollowedBy(users, a, x);
    }
    forall a ensures !Follows(r, a, a) {
      if a != user.id { assert Follows(r, a, a) == Follows(users, a, a); }
    }
  }

  /** `updateProfile`'s change to a document: a field of the request that is
      non-null replaces the stored one, and `updatedAt` is stamped. */
  function ApplyProfileUpdate(u: User, req: UpdateProfileRequest, now: int): (r: User)
    ensures r.fullName == (if req.fullName.Some? then req.fullName else u.fullName)
    ensures r.bio == (if req.bio.Some? then req.bio else u.bio)
    ensures r.updatedAt == now
    ensures r.(fullName := u.fullName, bio := u.bio, updatedAt := u.updatedAt) == u
  {
    var withName := if req.fullName.Some? then u.(fullName := req.fullName) else u;
    var withBio := if req.bio.Some? then withName.(bio := req.bio) else withName;
    withBio.(updatedAt := now)
  }

  /** Applying the same profile update twice is applying it once. */
  lemma ProfileUpdateIdempotent(u: User, req: UpdateProfileRequest, now: int)
    ensures ApplyProfileUpdate(ApplyProfileUpdate(u, req, now), req, now) == ApplyProfileUpdate(u, req, now)
  {
  }

  /** A profile update keeps the store invariants: it touches neither the
      account identity nor the follow graph. */
  lemma ProfileUpdatePreservesStore(users: Store, userId: string, req: UpdateProfileRequest, now: int)
    requires StoreValid(users) && userId in users
    ensures StoreValid(users[userId := ApplyProfileUpdate(users[userId], req, now)])
  {
    var after := users[userId := ApplyProfileUpdate(users[userId], req, now)];
    SameAccountsKeepIdentity(users, after);
    SameGraphKeepsGraph(users, after);
  }

  /** The service object: the user store and the `user-events` log. */
  class UserService {
    var users: Store
    var events: seq<UserEvent>

    ghost predicate Valid()
      reads this
    {
      StoreValid(users) && AllPublished(events)
    }

    constructor ()
      ensures Valid() && users == map[] && events == []
    {
      users := map[];
      events := [];
    }

    /** `register`: username first, then email; a fresh user with empty
        collections is saved, a REGISTRATION event is published and a token
        for the new id is returned. */
    method Register(req: RegisterRequest, newId: string, now: int,
                    encode: string -> string, generateToken: (string, string) -> string)
      returns (r: Result<AuthResponse>)
      requires Valid() && newId !in users
      modifies this
      ensures Valid()
      ensures r.Err? <==> RegisterCheck(old(users), req).Fail?
      ensures r.Err? ==> r.error == RegisterCheck(old(users), req).error
                         && users == old(users) && events == old(events)
      ensures r.Ok? ==>
                && users == old(users)[newId := User(newId, req.username, req.email, encode(req.password),
                                                     req.fullName, None, None, None, Some({}), Some({}),
                                                     false, now, now, None)]
                && events == old(events) + [UserEvent(Some("REGISTRATION"), newId, req.username, None)]
                && r.value == AuthResponse(generateToken(newId, req.username), newId, req.username, req.email, None)
    {
      if UsernameTaken(users, req.username) {
        return Err(Runtime("Registration failed: Username already exists"));
      }
      if EmailTaken(users, req.email) {
        return Err(Runtime("Registration failed: Email already exists"));
      }
      var user := User(newId, req.username, req.email, encode(req.password), req.fullName,
                       None, None, None, Some({}), Some({}), false, now, now, None);
      AddUserPreservesStore(users, user);
      users := users[newId := user];
      var token := generateToken(newId, req.username);
      var event := UserEvent(Some("REGISTRATION"), newId, req.username, None);
      PublishKeepsLog(events, event);
      events := events + [event];
      r := Ok(AuthResponse(token, newId, req.username, req.email, None));
    }

    /** `login`: an unknown username or a password the encoder does not
        match fails without change; otherwise `lastSeen` is stamped, a LOGIN
        event is published and a token is returned. */
    method Login(req: LoginRequest, now: int,
                 matches: (string, string) -> bool, generateToken: (string, string) -> string)
      returns (r: Result<AuthResponse>)
      requires Valid()
      modifies this
      ensures Valid()
      ensures r.Err? <==> LoginCheck(old(users), req, matches).Fail?
      ensures r.Err? ==> r.error == LoginCheck(old(users), req, matches).error
                         && users == old(users) && events == old(events)
      ensures r.Ok? ==>
                (exists id :: id in old(users) && old(users)[id].username == req.username
                   && matches(req.password, old(users)[id].password)
                   && users == old(users)[id := old(users)[id].(lastSeen := Some(now))]
                   && events == old(events) + [UserEvent(Some("LOGIN"), id, req.username, None)]
                   && r.value == AuthResponse(generateToken(id, req.username), id, req.username,
                                              old(users)[id].email, old(users)[id].profilePicture))
    {
      var found := FindByUsername(users, req.username);
      if found.None? {
        return Err(Runtime("User not found"));
      }
      var id := found.value;
      var user := users[id];
      if !matches(req.password, user.password) {
        return Err(Runtime("Invalid password"));
      }
      user := user.(lastSeen := Some(now));
      SameAccountsKeepIdentity(users, users[id := user]);
      SameGraphKeepsGraph(users, users[id := user]);
      users := users[id := user];
      var token := generateToken(id, user.username);
      var event := UserEvent(Some("LOGIN"), id, user.username, None);
      PublishKeepsLog(events, event);
      events := events + [event];
      r := Ok(AuthResponse(token, id, user.username, user.email, user.profilePicture));
    }

    /** `followUser`: rejects a self-follow before any lookup; on success both
        documents record the edge and one FOLLOW event is published. */
    method FollowUser(current: string, target: string) returns (r: Outcome)
      requires Valid()
      modifies this
      ensures Valid()
      ensures r == FollowCheck(old(users), current, target)
      ensures r.Fail? ==> users == old(users) && events == old(events)
      ensures r.Pass? ==>
                && users == Followed(old(users), current, target)
                && events == old(events) + [FollowEvent(current, old(users)[current].username, target)]
    {
      if current == target {
        return Fail(Runtime("Cannot follow yourself"));
      }
      if current !in users {
        return Fail(Runtime("User not found"));
      }
      if target !in users {
        return Fail(Runtime("Target user not found"));
      }
      var currentUser, targetUser := users[current], users[target];
      if currentUser.following.None? {
        return Fail(NullPointer);
      }
      currentUser := currentUser.(following := Some(currentUser.following.value + {target}));
      if targetUser.followers.None? {
        return Fail(NullPointer);
      }
      targetUser := targetUser.(followers := Some(targetUser.followers.value + {current}));
      FollowPreservesStore(users, current, target);
      users := users[current := currentUser];
      users := users[target := targetUser];
      var event := FollowEvent(current, currentUser.username, target);
      PublishKeepsLog(events, event);
      events := events + [event];
      r := Pass;
    }

    /** `unfollowUser`: both lookups, both removals, both saves; no event and
        no self check. */
    method UnfollowUser(current: string, target: string) returns (r: Outcome)
      requires Valid()
      modifies this
      ensures Valid()
      ensures r == UnfollowCheck(old(users), current, target)
      ensures r.Fail? ==> users == old(users)
      ensures r.Pass? ==> users == Unfollowed(old(users), current, target)
      ensures events == old(events)
    {
      if current !in users {
        return Fail(Runtime("User not found"));
      }
      if target !in users {
        return Fail(Runtime("Target user not found"));
      }
      var currentUser, targetUser := users[current], users[target];
      if currentUser.following.None? {
        return Fail(NullPointer);
      }
      currentUser := currentUser.(following := Some(currentUser.following.value - {target}));
      if targetUser.followers.None? {
        return Fail(NullPointer);
      }
      targetUser := targetUser.(followers := Some(targetUser.followers.value - {current}));
      UnfollowPreservesStore(users, current, target);
      users := users[current := currentUser];
      users := users[target := targetUser];
      r := Pass;
    }

    /** `updateProfile`: the document is rewritten by `ApplyProfileUpdate`
        and the response is the re-read profile, which throws when a
        collection is null even though the update was saved. */
    method UpdateProfile(userId: string, req: UpdateProfileRequest, now: int)
      returns (r: Result<UserProfileResponse>)
      requires Valid()
      modifies this
      ensures Valid()
      ensures events == old(events)
      ensures userId !in old(users) ==> r == Err(Runtime("User not found")) && users == old(users)
      ensures userId in old(users) ==>
                && users == old(users)[userId := ApplyProfileUpdate(old(users)[userId], req, now)]
                && r == GetUserProfile(users, old(users)[userId].username)
    {
      if userId !in users {
        return Err(Runtime("User not found"));
      }
      var user := users[userId];
      if req.fullName.Some? {
        user := user.(fullName := req.fullName);
      }
      if req.bio.Some? {
        user := user.(bio := req.bio);
      }
      user := user.(updatedAt := now);
      assert user == ApplyProfileUpdate(users[userId], req, now);
      ProfileUpdatePreservesStore(users, userId, req, now);
      users := users[userId := user];
      r := GetUserProfile(users, user.username);
    }
  }
}

=== FILE: websocket.dfy ===
/** The STOMP controller of the message service: which user id a sent
    message is attributed to, which pushes follow it, and where a typing
    indicator goes. Session attributes are a map from attribute name to the
    value's `toString()`, `None` when the session has no attribute map. */
module WebSocket {
  import opened Common
  import opened Messages

  type Session = Option<map<string, string>>

  /** The id the controller falls back to when the session names no user. */
  const DebugUserId := "hardcoded-id-for-debug"
  const TypingQueue := "/queue/typing"

  /** The session's `userId` attribute, if the session has one. */
  function SessionUserId(session: Session): (r: Option<string>)
    ensures r.Some? <==> session.Some? && "userId" in session.value
    ensures r.Some? ==> r.value == session.value["userId"]
  {
    match session
    case None => None
    case Some(attrs) => if "userId" in attrs then Some(attrs["userId"]) else None
  }

  /** The sender id `sendMessage` passes to the service: the session's user,
      or the debug id when there is none. */
  function ResolveSender(session: Session): (id: string)
    ensures SessionUserId(session).Some? ==> id == SessionUserId(session).value
    ensures SessionUserId(session).None? ==> id == DebugUserId
  {
    SessionUserId(session).GetOr(DebugUserId)
  }

  /** The pushes among `ps` addressed to `user` on `destination`. */
  function PushesTo(ps: seq<Push>, user: string, destination: string): nat {
    if ps == [] then 0
    else (if ps[0].user == user && ps[0].destination == destination then 1 else 0)
         + PushesTo(ps[1..], user, destination)
  }

  lemma {:induction false} PushesToAppend(a: seq<Push>, b: seq<Push>, user: string, destination: string)
    ensures PushesTo(a + b, user, destination) == PushesTo(a, user, destination) + PushesTo(b, user, destination)
  {
    if a == [] {
      assert a + b == b;
    } else {
      assert (a + b)[1..] == a[1..] + b;
      PushesToAppend(a[1..], b, user, destination);
    }
  }

  /** The incoming `WebSocketMessage` payload, which `typing` mutates. */
  class WsMessage {
    var kind: string
    var message: Option<MessageResponse>
    var userId: Option<string>

    constructor (kind: string, message: Option<MessageResponse>, userId: Option<string>)
      ensures this.kind == kind && this.message == message && this.userId == userId
    {
      this.kind := kind;
      this.message := message;
      this.userId := userId;
    }

    /** The payload as it is serialised at send time. */
    function AsFrame(): Payload
      reads this
    {
      Frame(kind, message, userId)
    }
  }

  class WebSocketController {
    const service: MessageService
    const broker: Broker

    constructor (service: MessageService)
      ensures this.service == service && this.broker == service.broker
    {
      this.service := service;
      this.broker := service.broker;
    }

    /** `/chat.send`. With a session user the message is sent under that id
        and then wrapped in a MESSAGE frame and pushed to the receiver a
        second time; without one it is sent under the debug id and the method
        returns before the wrapped push. Failures of the service, and of the
        wrapped push, propagate. */
    method SendMessage(req: MessageRequest, session: Session, directory: map<string, Sender>,
                       conversationId: string, newId: string, now: int,
                       servicePushFails: bool, framePushFails: bool)
      returns (r: Outcome)
      requires service.broker == broker && newId !in service.messages
      modifies service, broker
      ensures newId in service.messages <==> ResolveSender(session) in directory && ValueOf(req.kind).Ok?
      ensures newId in service.messages ==>
                service.messages[newId] == BuildMessage(newId, conversationId, ResolveSender(session),
                                                        directory[ResolveSender(session)], req,
                                                        ValueOf(req.kind).value, now)
      ensures ResolveSender(session) !in directory ==>
                && r == Fail(UserServiceDown)
                && service.conversationCalls == old(service.conversationCalls)
                && broker.sent == old(broker.sent)
      ensures ResolveSender(session) in directory && ValueOf(req.kind).Err? ==>
                && r == Fail(IllegalArgument(req.kind))
                && service.conversationCalls
                   == old(service.conversationCalls) + [FindOrCreate(ResolveSender(session), req.receiverId)]
                && broker.sent == old(broker.sent)
      ensures newId in service.messages ==>
                service.conversationCalls
                == old(service.conversationCalls)
                   + [FindOrCreate(ResolveSender(session), req.receiverId),
                      UpdateAfterMessage(conversationId, service.messages[newId], req.receiverId)]
      ensures newId !in service.messages ==> service.messages == old(service.messages)
      ensures newId in service.messages ==> service.messages == old(service.messages)[newId := service.messages[newId]]
      ensures r.Pass? <==> newId in service.messages && (SessionUserId(session).Some? ==> !framePushFails)
      ensures SessionUserId(session).None? ==>
                |broker.sent| <= |old(broker.sent)| + 1 &&
                forall i :: |old(broker.sent)| <= i < |broker.sent| ==> broker.sent[i].payload.ResponsePayload?
      ensures SessionUserId(session).Some? && newId in service.messages ==>
                var resp := MapToResponse(service.messages[newId]);
                broker.sent == old(broker.sent)
                  + (if servicePushFails then [] else [Push(req.receiverId, MessagesQueue, ResponsePayload(resp))])
                  + (if framePushFails then [] else [Push(req.receiverId, MessagesQueue, Frame("MESSAGE", Some(resp), None))])
      ensures SessionUserId(session).Some? && r.Pass? && !servicePushFails ==>
                PushesTo(broker.sent, req.receiverId, MessagesQueue)
                == PushesTo(old(broker.sent), req.receiverId, MessagesQueue) + 2
    {
      var sessionUser := SessionUserId(session);
      if sessionUser.None? {
        var ignored := service.SendMessage(DebugUserId, req, directory, conversationId, newId, now, servicePushFails);
        if ignored.Err? {
          return Fail(ignored.error);
        }
        return Pass;
      }
      var userId := sessionUser.value;
      var response := service.SendMessage(userId, req, directory, conversationId, newId, now, servicePushFails);
      if response.Err? {
        return Fail(response.error);
      }
      r := broker.ConvertAndSendToUser(req.receiverId, MessagesQueue,
                                       Frame("MESSAGE", Some(response.value), None), framePushFails);
      if r.Pass? && !servicePushFails {
        ReceiverGetsTwoPushes(old(broker.sent), req.receiverId, response.value);
      }
    }

    /** `/chat.typing`: the payload's `userId` is overwritten with the session
        user and the payload is pushed to that same user's typing queue, that
        is, back to whoever is typing. A session without a user id makes the
        dereference throw before anything changes. */
    method Typing(message: WsMessage, session: Session, pushFails: bool) returns (r: Outcome)
      requires service.broker == broker
      modifies message, broker
      ensures SessionUserId(session).None? ==>
                r == Fail(NullPointer) && broker.sent == old(broker.sent) && message.userId == old(message.userId)
      ensures SessionUserId(session).Some? ==>
                var uid := SessionUserId(session).value;
                && message.userId == Some(uid)
                && r == (if pushFails then Fail(SendFailed) else Pass)
                && broker.sent == old(broker.sent) + (if pushFails then [] else [Push(uid, TypingQueue, message.AsFrame())])
      ensures message.kind == old(message.kind) && message.message == old(message.message)
    {
      var sessionUser := SessionUserId(session);
      if sessionUser.None? {
        return Fail(NullPointer);
      }
      message.userId := Some(sessionUser.value);
      r := broker.ConvertAndSendToUser(message.userId.value, TypingQueue, message.AsFrame(), pushFails);
    }
  }

  /** On the authenticated path, with both pushes delivered, the receiver
      gets the message twice on `/queue/messages`: once bare, once wrapped. */
  lemma ReceiverGetsTwoPushes(before: seq<Push>, receiverId: string, resp: MessageResponse)
    ensures PushesTo(before + [Push(receiverId, MessagesQueue, ResponsePayload(resp))]
                            + [Push(receiverId, MessagesQueue, Frame("MESSAGE", Some(resp), None))],
                     receiverId, MessagesQueue)
            == PushesTo(before, receiverId, MessagesQueue) + 2
  {
    var p1 := [Push(receiverId, MessagesQueue, ResponsePayload(resp))];
    var p2 := [Push(receiverId, MessagesQueue, Frame("MESSAGE", Some(resp), None))];
    PushesToAppend(before + p1, p2, receiverId, MessagesQueue);
    PushesToAppend(before, p1, receiverId, MessagesQueue);
  }
}
